=== FILE: README.md ===
# anno-demo SQL helper, modelled in Dafny

This project models the annotation-driven SQL helper of `anno-demo` in Dafny.
It covers two parts:

- **Query side.** The helper derives a table name and an ordered column-to-field map from an entity class (`ClassCacheUtils`). It builds a `WHERE` text from the non-null fields of a filter object. It assembles `SELECT` and `COUNT(DISTINCT …)` queries (`SqlUtils`).
- **Result side.** It splits the text lines a query returns into cells. It converts each cell to its field's type and fills new objects with the results.

Java reflection becomes data:

- A class (`Classes.ClassDesc`) is a name, an optional `@SqlTable` name, its declared fields in order, and the object its no-argument constructor yields.
- An object is a map from field name to value.

Java exceptions and Java `null` are kept apart:

- `Outcome` is `Returned(v)` or `Threw(e)`.
- A nullable result is an `Option` inside `Returned`.

The modules follow the source:

- `Results`, `Strings`, `Naming`, `Classes`: support.
- `Metadata`: `ClassCacheUtils`.
- `SqlText`: the query side of `SqlUtils`.
- `ResultMapper`: the result side of `SqlUtils`.

Where the code and its documentation disagree, the model follows the code:

- **`List` fields.** Every `List` field without `@SqlColumn` throws a `NullPointerException` when its relation is read. This applies to `EQ` lists as well as `BETWEEN` lists.
- **`BETWEEN` output.** A `BETWEEN` predicate ends with a space.
- **Default table name.** It is `toUnderscore` of the fully-qualified class name, so `com.example.UserOrder` gives `com.example._user_order`.
- **Static fields.** They take part in the `WHERE` clause but are not columns.
- **`toCamelCase`.** It converts in the same direction as `toUnderscore` (see Findings).

## Model

| member | source | states |
|---|---|---|
| Naming.ToUnderscore | src/main/java/com/example/annodemo/util/ClassCacheUtils.java:66-68 | The camel-to-underscore conversion leaves no upper-case letter. It lower-cases the first character and adds one character per later upper-case letter. |
| Naming.UnderscoreOnlyInsertsSeparators | src/main/java/com/example/annodemo/util/ClassCacheUtils.java:66-68 | Apart from `_`, the converted name is exactly the lower-cased original: the conversion only lower-cases and inserts separators. |
| Naming.ToUnderscoreFixedPoint | src/main/java/com/example/annodemo/util/ClassCacheUtils.java:66-68 | A name is left unchanged exactly when it has no upper-case letter. Converting twice is the same as converting once. |
| Naming.WordBreaksAppend | src/main/java/com/example/annodemo/util/ClassCacheUtils.java:66-68 | Separator insertion works character by character, so it distributes over concatenation. |
| Naming.WordBreaksUpperHead | src/main/java/com/example/annodemo/util/ClassCacheUtils.java:66-68 | A word starting with a capital, when it is not at the start of the name, is prefixed with `_`. |
| Naming.ToUnderscoreAppendWord | src/main/java/com/example/annodemo/util/ClassCacheUtils.java:66-68 | Appending a capitalised word to a name appends `_` and the converted word. |
| Naming.ToUnderscoreFieldName | src/main/java/com/example/annodemo/util/ClassCacheUtils.java:53 | The field `orderId` maps to the column `order_id`. |
| Naming.ToUnderscoreSimpleClassName | src/main/java/com/example/annodemo/util/ClassCacheUtils.java:66-68 | `UserOrder` converts to `user_order`. |
| Naming.ToUnderscoreQualifiedClassName | src/main/java/com/example/annodemo/util/ClassCacheUtils.java:30 | The qualified name `com.example.UserOrder` converts to `com.example._user_order`. |
| Naming.ToCamelCaseAsWritten | src/main/java/com/example/annodemo/util/ClassCacheUtils.java:76-78 | The "underscore to camel" helper as written never produces an upper-case letter, so it cannot produce camel case. |
| Naming.ToCamelCaseAsWrittenKeepsUnderscores | src/main/java/com/example/annodemo/util/ClassCacheUtils.java:76-78 | As written, `order_id` comes back as `order_id`, not `orderId`. |
| Naming.ToCamelCase | src/main/java/com/example/annodemo/util/ClassCacheUtils.java:70-78 | The intended underscore-to-camel conversion never leaves a `_` in its result. |
| Naming.ToCamelCaseRecoversFieldName | src/main/java/com/example/annodemo/util/ClassCacheUtils.java:70-78 | The intended conversion turns `order_id` back into `orderId`. |
| Naming.CamelFromWordBreaks | src/main/java/com/example/annodemo/util/ClassCacheUtils.java:70-78 | Camel-casing undoes separator insertion on any name without `_`. |
| Naming.CamelCaseRoundTrip | src/main/java/com/example/annodemo/util/ClassCacheUtils.java:66-78 | For every field name with no `_` and a lower-case or non-letter first character, camel case of its column name is the field name again. |
| Strings.LowerCase | src/main/java/com/example/annodemo/util/ClassCacheUtils.java:66-68 | Lower-casing keeps the length and maps every character by the ASCII case rule. |
| Strings.UpperCase | src/main/java/com/example/annodemo/util/SqlUtils.java:289 | `toUpperCase` keeps the length and upper-cases each ASCII letter. |
| Strings.JavaSplit | src/main/java/com/example/annodemo/util/SqlUtils.java:162 | Java's `split` on a line without the separator gives the line itself as the one piece. No piece contains the separator. When the line holds the separator, the last piece is non-empty, because trailing empty pieces are dropped. |
| Strings.SplitOnJoin | src/main/java/com/example/annodemo/util/SqlUtils.java:162 | Rejoining the pieces of a split with the separator gives back the original line, and no piece contains the separator. |
| Strings.SplitOnLastEmpty | src/main/java/com/example/annodemo/util/SqlUtils.java:162 | The last piece is empty exactly when the line is empty or ends with the separator. |
| Strings.JavaSplitJoin | src/main/java/com/example/annodemo/util/SqlUtils.java:162 | Java's `split` gives pieces without the separator. When the line does not end with the separator, they rejoin to the line. |
| Strings.JoinSplitOn | src/main/java/com/example/annodemo/util/SqlUtils.java:162 | Splitting a join of separator-free parts gives the parts back. |
| Strings.JavaSplitOfJoin | src/main/java/com/example/annodemo/util/SqlUtils.java:162-164 | Java's `split` recovers joined cells, and their count, exactly when there is one cell or the last cell is non-empty. Trailing empty cells are dropped. |
| Strings.DecimalRoundTrip | src/main/java/com/example/annodemo/util/SqlUtils.java:235-239 | `parseInt`/`parseLong` of the decimal text of an in-range number gives the number back. |
| Strings.DecimalOutOfRange | src/main/java/com/example/annodemo/util/SqlUtils.java:235-239 | The decimal text of a number outside the target type's range is rejected. |
| Strings.NonDigitRejected | src/main/java/com/example/annodemo/util/SqlUtils.java:235-239 | A text with a non-digit anywhere after its first character is rejected, whatever the range. |
| Strings.SignAlone | src/main/java/com/example/annodemo/util/SqlUtils.java:235-239 | A lone `+` or `-` is rejected, and `-0` reads as 0 whenever 0 is in range. |
| Strings.CanonicalDigits | src/main/java/com/example/annodemo/util/SqlUtils.java:235-239 | A non-empty digit string without a leading zero is exactly the decimal text of its own value. With `Strings.DecimalRoundTrip`, every such string in range therefore parses to its value. |
| Strings.ParseDecimal | src/main/java/com/example/annodemo/util/SqlUtils.java:235-239 | A successful parse lies in the range of the target type, and the text starts with a sign or a digit. Which texts are accepted, and with what value, is fixed by `Strings.DecimalRoundTrip`, `Strings.CanonicalDigits`, `Strings.DecimalOutOfRange`, `Strings.NonDigitRejected`, `Strings.SignAlone` and `Strings.ParseDecimalIgnoresPlusAndZeros`. |
| Strings.LeadingZeroValue | src/main/java/com/example/annodemo/util/SqlUtils.java:235-239 | A leading `0` does not change the value of a digit string. |
| Strings.ParseDecimalIgnoresPlusAndZeros | src/main/java/com/example/annodemo/util/SqlUtils.java:235-239 | For any digit string `d`, `parseInt`/`parseLong` give `+d` and `0d` the same result as `d`, and `-0d` the same result as `-d`. |
| Strings.NatToDecimalValue | src/main/java/com/example/annodemo/util/SqlUtils.java:102 | The decimal text a number is printed as denotes that number. |
| Classes.ToText | src/main/java/com/example/annodemo/util/SqlUtils.java:101-117 | The text `append` inserts is the string itself for a `String`. For an in-range `Integer` or `Long` it parses back to the number. For a `Boolean` it reads as `true`, ignoring case, iff the value is true. |
| Metadata.LoadTableName | src/main/java/com/example/annodemo/util/ClassCacheUtils.java:28-31 | With `@SqlTable`, the table name is the annotation's name. Without it, the name is lower-case and no shorter than the class name. |
| Metadata.TableNameKeepsPackage | src/main/java/com/example/annodemo/util/ClassCacheUtils.java:30 | Without `@SqlTable`, the derived name is the package prefix, `_`, and the converted simple name. It is not the snake-case simple name alone. |
| Metadata.TableNameExamples | src/main/java/com/example/annodemo/util/ClassCacheUtils.java:29-30 | `com.example.UserOrder` gives its `@SqlTable` name when annotated, and `com.example._user_order` otherwise. |
| Metadata.Put | src/main/java/com/example/annodemo/util/ClassCacheUtils.java:50-54 | `LinkedHashMap.put` gives the key the new field and leaves other keys unchanged. An existing key keeps its position and a new key is appended. Keys stay unique. |
| Metadata.Lookup | src/main/java/com/example/annodemo/util/SqlUtils.java:292 | `get` finds a field iff the key is in the map, and the field it finds is the one stored under that key. |
| Metadata.ColumnKeyRule | src/main/java/com/example/annodemo/util/ClassCacheUtils.java:48-54 | An annotated field's column is the annotation's name. An unannotated field's column has no upper-case letter and, apart from `_`, is the lower-cased field name. |
| Metadata.LoadColumns | src/main/java/com/example/annodemo/util/ClassCacheUtils.java:43-55 | Every field that is neither ignored nor static has its column as a key. Every key comes from such a field. Every entry maps its column to a field whose column it is. |
| Metadata.LoadColumnMap | src/main/java/com/example/annodemo/util/ClassCacheUtils.java:39-57 | The column map of a class holds exactly the columns of its non-ignored, non-static fields, each mapped to a field with that column. |
| Metadata.ColumnMapKeyOrder | src/main/java/com/example/annodemo/util/ClassCacheUtils.java:43-55 | The keys are the mapped columns in declaration order, with each column at its first occurrence. |
| Metadata.ColumnMapLastWins | src/main/java/com/example/annodemo/util/ClassCacheUtils.java:50-54 | When two fields share a column, the map holds the later field. |
| Metadata.ColumnMapInDeclarationOrder | src/main/java/com/example/annodemo/util/ClassCacheUtils.java:43-55 | With distinct columns, the map is exactly the mapped fields paired with their columns, in declaration order. |
| Metadata.MemoGet | src/main/java/com/example/annodemo/util/ClassCacheUtils.java:23-37 | A cached class is answered from the cache unchanged. A miss returns what the loader computes and stores it, touching no other entry. A failing loader (null) stores nothing. |
| Metadata.MemoReturnsLoaderValue | src/main/java/com/example/annodemo/util/ClassCacheUtils.java:23-37 | While the cache holds only loader results, a lookup returns what the loader computes, and the cache stays that way. |
| Metadata.MemoRepeatable | src/main/java/com/example/annodemo/util/ClassCacheUtils.java:23-37 | A second lookup of the same class returns the same answer and leaves the cache unchanged. |
| Metadata.GetTableName | src/main/java/com/example/annodemo/util/ClassCacheUtils.java:80-87 | Over a cache holding only loader results, `getTableName` returns the loader's table name and keeps other classes' entries. |
| Metadata.GetColumnFieldMap | src/main/java/com/example/annodemo/util/ClassCacheUtils.java:89-96 | Over a cache holding only loader results, `getColumnFieldMap` returns the loader's column map and keeps other classes' entries. |
| SqlText.FieldPredicate | src/main/java/com/example/annodemo/util/SqlUtils.java:96-118 | Each predicate starts with the field's column name. A non-list field always renders. An unannotated list throws a null pointer. A `BETWEEN` list renders iff it holds at least two items. An `EQ` list renders iff its element type is `String` or `Integer`. An `EQ` list of any other non-list element type throws "Unsupported type". The text after the column is given by `SqlText.ScalarFieldPredicate`, `SqlText.BetweenReadsFirstTwo` and `SqlText.InListSplitsBack`. |
| SqlText.ScalarFieldPredicate | src/main/java/com/example/annodemo/util/SqlUtils.java:114-117 | A non-list field renders `col = 'text'` for a `String` field and `col = text` otherwise, with the value's text inserted verbatim. |
| SqlText.BetweenReadsFirstTwo | src/main/java/com/example/annodemo/util/SqlUtils.java:101-102 | A `BETWEEN` list of two or more items renders `col BETWEEN a AND b ` from its first two items. Items after the second do not change the text. |
| SqlText.InListSplitsBack | src/main/java/com/example/annodemo/util/SqlUtils.java:104-112 | An `EQ` list of strings or integers renders `col in (...)`. When no item's text holds a comma, the text in the parentheses splits at `,` into one part per item: the quoted text for strings, the bare text for integers. |
| SqlText.Contributing | src/main/java/com/example/annodemo/util/SqlUtils.java:87-96 | A field contributes a predicate exactly when it is declared, not `@SqlIgnore`, and its value is non-null. |
| SqlText.Predicates | src/main/java/com/example/annodemo/util/SqlUtils.java:87-125 | The loop completes iff every contributing field renders. When it throws, the exception is that of the first contributing field, in declaration order, that does not render: every contributing field before it renders (`SqlText.FirstThrow`). |
| SqlText.PredicatesOfContributing | src/main/java/com/example/annodemo/util/SqlUtils.java:87-125 | The predicates collected are, position by position, the rendering of the contributing fields in declaration order. |
| SqlText.WhereParams | src/main/java/com/example/annodemo/util/SqlUtils.java:81-128 | The WHERE text is produced iff every contributing field renders. A filter with no non-null field gives the empty text. An exception is the one the predicate loop raises, that of the first contributing field that cannot be rendered. |
| SqlText.WhereIsJoinOfContributing | src/main/java/com/example/annodemo/util/SqlUtils.java:119-127 | The WHERE text is the contributing fields' predicates, in field order, joined with ` AND `. |
| SqlText.RenderAll | src/main/java/com/example/annodemo/util/SqlUtils.java:92-119 | One predicate per contributing field, each the field's rendering. |
| SqlText.SelectSql | src/main/java/com/example/annodemo/util/SqlUtils.java:46-54 | The select query exists iff the WHERE text does. It targets the class's table and carries that WHERE text. |
| SqlText.SelectListRoundTrip | src/main/java/com/example/annodemo/util/SqlUtils.java:46-50 | The select list splits at `,` back into the chosen columns. With no columns requested, those are the column-map keys in declaration order. |
| SqlText.CountSql | src/main/java/com/example/annodemo/util/SqlUtils.java:56-62 | The count query has ` count(distinct col) ` as its select text, over the same table and WHERE text a select query would use, and fails exactly when that query fails. |
| SqlText.StaticFieldFiltersButIsNotAColumn | src/main/java/com/example/annodemo/util/SqlUtils.java:87-90 | A static field with a value adds a WHERE predicate although the column map never holds it. |
| SqlText.PrimitiveFieldAlwaysFilters | src/main/java/com/example/annodemo/util/SqlUtils.java:87-127 | In an object Java can hold, a primitive field that is not ignored always contributes, so a produced WHERE text is never empty. |
| SqlText.StringFieldPredicate | src/main/java/com/example/annodemo/util/SqlUtils.java:114-115 | For every string `s`, a `String` field renders `name = 's'`, with `s` inserted unescaped, so `O'Brien` gives `name = 'O'Brien'`. |
| SqlText.IntegerFieldPredicate | src/main/java/com/example/annodemo/util/SqlUtils.java:116-117 | A non-string field renders unquoted: `age = 5`. |
| SqlText.TwoFieldWhere | src/main/java/com/example/annodemo/util/SqlUtils.java:81-128 | A filter with `name`, `age` and a null `email` gives `name = 'Bob' AND age = 5`. |
| SqlText.BetweenPredicate | src/main/java/com/example/annodemo/util/SqlUtils.java:101-102 | A `BETWEEN` list renders `create_time BETWEEN 1 AND 9 `, with a trailing space. |
| SqlText.InPredicate | src/main/java/com/example/annodemo/util/SqlUtils.java:104-112 | An `EQ` list of strings renders `status in ('a','b')`. |
| SqlText.IntegerInPredicate | src/main/java/com/example/annodemo/util/SqlUtils.java:107-112 | An `EQ` list of integers renders unquoted: `ids in (1,2)`. |
| SqlText.UnannotatedListFails | src/main/java/com/example/annodemo/util/SqlUtils.java:100-101 | A `List` field without `@SqlColumn` throws a null pointer, whatever its element type. |
| SqlText.UnnamedAnnotationPredicate | src/main/java/com/example/annodemo/util/SqlUtils.java:98 | `@SqlColumn` without a name gives an empty column name: ` = 'x'`. |
| SqlText.CountWithEmptyFilter | src/main/java/com/example/annodemo/util/SqlUtils.java:56-62 | A count over a well-typed filter with nothing set has an empty WHERE text. |
| SqlText.LowerCaseNames | src/main/java/com/example/annodemo/util/SqlUtils.java:98 | An unannotated lower-case field name is its own column name. |
| ResultMapper.ParseValue | src/main/java/com/example/annodemo/util/SqlUtils.java:224-252 | Conversion behaves as follows: null stays null; a `String` target takes the text as is; blank text gives null for any other target; an in-range decimal gives that `Integer` or `Long`; non-blank text gives the `Boolean` that says whether it reads `true`, ignoring case; non-text and unsupported targets throw. A number-format error happens iff the text is not an in-range decimal for `Integer`/`Long`. |
| ResultMapper.ParseValueRoundTrip | src/main/java/com/example/annodemo/util/SqlUtils.java:224-249 | Converting the printed form of any `String`, `Integer`, `Long` or `Boolean` value gives the value back. |
| ResultMapper.BlankFollowsJavaWhitespace | src/main/java/com/example/annodemo/util/SqlUtils.java:232-236 | A cell holding only an em space is blank and converts to null. A cell holding only a no-break space is not blank, and `parseInt` rejects it. |
| ResultMapper.BooleanUpperCaseTrue | src/main/java/com/example/annodemo/util/SqlUtils.java:247-248 | `TRUE` converts to `true`. |
| ResultMapper.BooleanOtherTextFalse | src/main/java/com/example/annodemo/util/SqlUtils.java:247-248 | Any other text, such as `yes`, converts to `false`. |
| ResultMapper.IntegerLeadingPlus | src/main/java/com/example/annodemo/util/SqlUtils.java:235-236 | `+5` converts to the `Integer` 5. |
| ResultMapper.IntegerLeadingZeros | src/main/java/com/example/annodemo/util/SqlUtils.java:235-236 | `007` converts to the `Integer` 7. |
| ResultMapper.IntegerOverflowRejected | src/main/java/com/example/annodemo/util/SqlUtils.java:235-239 | The decimal text of a number above the `int` range but within `long` is a number-format error for an `Integer` field and that number for a `Long` field. |
| ResultMapper.TrailingLetterRejected | src/main/java/com/example/annodemo/util/SqlUtils.java:235-239 | A non-blank cell with a non-digit after its first character, such as `1a`, is a number-format error for an `Integer` or `Long` field. |
| ResultMapper.ConvertedAssignable | src/main/java/com/example/annodemo/util/SqlUtils.java:295 | A converted cell can be stored in its field iff the field is not primitive. A primitive field only ever receives null, which `Field.set` rejects. |
| ResultMapper.AssignCell | src/main/java/com/example/annodemo/util/SqlUtils.java:288-299 | A cell escapes as an exception iff it is a non-text value or names an unmapped column. Otherwise the object survives iff the cell is skipped or converted and set. A skipped cell changes nothing. A written cell changes exactly its field. |
| ResultMapper.FillPrefix | src/main/java/com/example/annodemo/util/SqlUtils.java:287-301 | The loop yields an object iff every cell so far is accepted. It throws iff the first unaccepted cell is missing or throws. |
| ResultMapper.FillStep | src/main/java/com/example/annodemo/util/SqlUtils.java:287-300 | Each loop step either writes one field with the converted cell or leaves the object as it was. |
| ResultMapper.FilledKeys | src/main/java/com/example/annodemo/util/SqlUtils.java:287-300 | The filled object holds a field iff the new instance held it or some cell wrote it. |
| ResultMapper.FilledUntouched | src/main/java/com/example/annodemo/util/SqlUtils.java:287-300 | A field no cell writes keeps its initial value. |
| ResultMapper.FilledLastWrite | src/main/java/com/example/annodemo/util/SqlUtils.java:287-300 | A field holds the value of the last cell written into it. |
| ResultMapper.ParseResultObject | src/main/java/com/example/annodemo/util/SqlUtils.java:278-302 | When the class cannot be instantiated the result is null. Otherwise an object is returned iff every cell is accepted, and an exception is thrown iff the first cell that is not accepted is missing or its conversion or assignment throws. |
| ResultMapper.LineCells | src/main/java/com/example/annodemo/util/SqlUtils.java:162 | The cells of a line are its pieces under Java's `split`, as text. |
| ResultMapper.ParseLines | src/main/java/com/example/annodemo/util/SqlUtils.java:158-170 | The lines are read in order, and the first line that does not fit or does not parse decides the result. The result is null iff that line has the wrong cell count, with every line before it fitting and parsing. An exception is the one thrown by the first fitting line whose parse throws, every line before it parsing. A list holds one object per line, each the parse of that line, and is produced whenever every line fits and parses. |
| ResultMapper.MisfitFirstLineGivesNull | src/main/java/com/example/annodemo/util/SqlUtils.java:162-169 | A first line with the wrong cell count gives a null list, whatever the later lines are, even a line whose parse would throw. |
| ResultMapper.ThrowingFirstLineThrows | src/main/java/com/example/annodemo/util/SqlUtils.java:162-169 | A first line that fits but whose parse throws makes the call throw that exception, even when a later line has the wrong cell count. |
| ResultMapper.Collect | src/main/java/com/example/annodemo/util/SqlUtils.java:158-170 | Over per-line fit flags and parse outcomes, the first line that misfits or throws decides: a misfit gives null, a throwing line gives its exception (`ResultMapper.FirstBad`). The result is null iff some misfit line is preceded only by good lines. An exception is that of a fitting line preceded only by good lines. With every line good, the objects are collected in order. |
| ResultMapper.ParseResultList | src/main/java/com/example/annodemo/util/SqlUtils.java:152-175 | With the given or default separator and the class's column map: the list has one entry per line, each line having one cell per column name and its entry being that line's parse. The result is null iff the first bad line has the wrong cell count. An exception is that of the first bad line, which fits. If every line fits and parses, the list is produced. No lines give the empty list. |
| ResultMapper.ParseResultListDefault | src/main/java/com/example/annodemo/util/SqlUtils.java:138-140 | As `ResultMapper.ParseResultList`, with the column-map keys as the column names and the default separator: one entry per line, each the parse of that line. The result is null iff the first bad line misfits, and an exception comes from the first bad line. The list is produced when every line fits and parses. |
| ResultMapper.ParseRows | src/main/java/com/example/annodemo/util/SqlUtils.java:262-266 | Each row is parsed against the column-map keys, with no length check. The list exists iff no row's parse throws, and holds each row's object in order. An exception is that of the first row whose parse throws, every row before it returning (`ResultMapper.FirstRowThrow`). |
| ResultMapper.ParseValueList | src/main/java/com/example/annodemo/util/SqlUtils.java:203-215 | One converted value per line. The list exists iff every line converts. |
| ResultMapper.ParseFirstValue | src/main/java/com/example/annodemo/util/SqlUtils.java:185-193 | No line, or a blank first line, gives null. Otherwise the result, value or exception, is the conversion of the first line. A non-null result fits the target type. |
| ResultMapper.FirstValueReadsFirstLineOnly | src/main/java/com/example/annodemo/util/SqlUtils.java:185-193 | Lines after the first, including lines that would not convert, never change the result. |
| ResultMapper.FirstValueThrowsOnBadFirstLine | src/main/java/com/example/annodemo/util/SqlUtils.java:185-193 | A first line whose conversion throws makes the reader throw the same exception. An unparsable `Integer` line throws a number-format error. |
| ResultMapper.EmptyCellByFieldType | src/main/java/com/example/annodemo/util/SqlUtils.java:229-233 | An empty cell sets a `String` field to the empty string and sets an `Integer`, `Long` or `Boolean` field to null. It makes the object null for a primitive field. |
| ResultMapper.NullTextSkipped | src/main/java/com/example/annodemo/util/SqlUtils.java:289-290 | Cells reading `null` or `Null` are skipped. |
| ResultMapper.FirstValueAgreesWithList | src/main/java/com/example/annodemo/util/SqlUtils.java:185-215 | The single-value reader returns the list reader's first element. The one exception is a blank first line for a `String` target, which gives null instead of the blank text. |
| ResultMapper.TrailingEmptyCellRejectsList | src/main/java/com/example/annodemo/util/SqlUtils.java:162-168 | A row whose last cell is empty loses that cell in the split, so the whole list is null. |
| ResultMapper.RowSplits | src/main/java/com/example/annodemo/util/SqlUtils.java:162-164 | A line written from printable values splits into exactly one text cell per column, each the printed value. |
| ResultMapper.RowCellsConvert | src/main/java/com/example/annodemo/util/SqlUtils.java:288-295 | Each such cell is accepted and converts back to its value. |
| ResultMapper.RowRoundTrip | src/main/java/com/example/annodemo/util/SqlUtils.java:152-175 | A line written from values for every column, in column-map order, reads back as one object whose mapped fields hold exactly those values. |

## Left out

- Input streams, `IOException` and logging are left out. The lines of a stream are a parameter. The `IOException` branches, which return the partial list or null, are not modelled.
- The MyBatis `SQL` builder's text is not modelled. A query is modelled as its select text, table and `WHERE` text, because the builder's rendering is library code.
- The Guava cache's size bound, expiry and thread safety are left out. The cache is modelled as a map passed through `Metadata.MemoGet`, `Metadata.GetTableName` and `Metadata.GetColumnFieldMap`.
- `SqlText.SelectSql`, `SqlText.SelectedColumns`, `SqlText.CountSql`, `ResultMapper.ParseResultList`, `ResultMapper.ParseResultListDefault` and `ResultMapper.ParseRows` call the loaders `Metadata.LoadTableName` and `Metadata.LoadColumnMap` directly, where the source goes through `getTableName` and `getColumnFieldMap`. `Metadata.GetTableName` and `Metadata.GetColumnFieldMap` show that, over a cache holding only loader results, the cache returns the same name and map.
- Reflection is replaced by data: classes and objects are values, and `setAccessible` has no effect.
- The `IllegalAccessException` paths are left out because they cannot be reached in ordinary classes. Both readers call `setAccessible(true)` before `get` and `set`, so neither raises that exception. `set` can write a final instance field, and static fields never enter the column map.
- `Float` and `Double` conversion is left out, because floating point parsing is outside the model. A field of either type could only be written as an `OtherType` kind, and the model would reject it as unsupported where the source parses it.
- ResultMapper.ParseResultList: the splitter is a single literal character, or `None` for a null or empty splitter string. Java reads the splitter as a regular expression. A multi-character splitter is not modelled. A one-character regex metacharacter such as `|` or `.` is split on literally here, while Java treats it as a pattern.
- `Strings.LowerCase` and the other case and digit functions cover ASCII only. Java's Unicode case mapping and Unicode digits in `parseInt` are not modelled. `Strings.IsWhitespace` does follow `Character.isWhitespace`, including its Unicode separators.
- Objects are not required to be well typed in general. A primitive field may hold null in the model, which Java cannot represent. Only `SqlText.PrimitiveFieldAlwaysFilters` and `SqlText.CountWithEmptyFilter` require `Classes.WellTyped`.
- Exceptions thrown by a class loader are left out: Guava's unchecked wrapping of them is library behaviour. A loader that fails is modelled only as returning null.
- A null filter object and a null `columnNames` list are left out, because Java `null` for these arguments has no counterpart in the model.
- `SqlSessionSupport` and `SqlBaseService` are left out: they execute the queries against a database.

## Findings

| source | as written | input that shows it | evidently intended | confidence | as-written member | corrected member |
|---|---|---|---|---|---|---|
| src/main/java/com/example/annodemo/util/ClassCacheUtils.java:76-78 | `toCamelCase`, documented as underscore-to-camel, converts from upper camel to lower underscore, exactly like `toUnderscore` | `order_id` comes back as `order_id` | `order_id` becomes `orderId`, inverting `toUnderscore` on field names | not executed | Naming.ToCamelCaseAsWritten (with Naming.ToCamelCaseAsWrittenKeepsUnderscores) | Naming.ToCamelCase (with Naming.ToCamelCaseRecoversFieldName and Naming.CamelCaseRoundTrip) |

=== FILE: classes.dfy ===
/** The reflective view of Java classes and objects the helper works on,
    made explicit: a class is its name, its optional `@SqlTable` name, its
    declared fields in declaration order and the object its no-argument
    constructor produces; an object is a map from field name to value.
 */
module Classes {
  import opened Results
  import opened Strings

  /** `SqlRelEnum`: how a `List` field of a filter is compared. */
  datatype Rel = EQ | BETWEEN

  /** `@SqlColumn(name, rel)`. */
  datatype SqlColumn = SqlColumn(name: string, rel: Rel)

  /** `@SqlColumn` written without arguments: `name` defaults to the empty
      string and `rel` to `EQ`. */
  const DefaultSqlColumn: SqlColumn := SqlColumn("", EQ)

  /** The declared type of a field, as far as the helper distinguishes it.
      `ListType(e)` is `List<e>`; `PrimitiveType` covers `int`, `long`,
      `boolean` and the other primitive types; `OtherType` every other
      reference type. */
  datatype Kind =
    | StringType
    | IntegerType
    | LongType
    | BooleanType
    | ListType(element: Kind)
    | PrimitiveType(name: string)
    | OtherType(name: string)

  /** A runtime value held in a field or in a result cell. `Null` is Java's
      `null`; `Int` and `Long` are boxed `Integer` and `Long`; `Other`
      is any other object, represented by its `toString()` text. */
  datatype Value =
    | Null
    | Str(s: string)
    | Int(i: int)
    | Long(l: int)
    | Bool(b: bool)
    | ListVal(items: seq<Value>)
    | Other(text: string)

  /** An object: the value of each of its fields, by field name. */
  type Instance = map<string, Value>

  /** A declared field with the modifiers and annotations the helper reads. */
  datatype Field = Field(
    name: string,
    kind: Kind,
    isStatic: bool,
    sqlIgnore: bool,                // carries `@SqlIgnore`
    sqlColumn: Option<SqlColumn>    // `@SqlColumn`, when present
  )

  /** A class: `getName()` (fully qualified), `@SqlTable` name when present,
      `getDeclaredFields()` in declaration order, and the result of
      `newInstance()` (`None` when instantiation fails). */
  datatype ClassDesc = ClassDesc(
    name: string,
    sqlTable: Option<string>,
    fields: seq<Field>,
    newInstance: Option<Instance>
  )

  /** An object together with its class, as passed to the WHERE builder. */
  datatype Obj = Obj(cls: ClassDesc, values: Instance)

  /** `field.get(o)`: a field the object holds no value for reads as `null`. */
  function FieldValue(o: Instance, name: string): Value {
    if name in o then o[name] else Null
  }

  /** A non-null value of the field's declared type. A primitive field
      holds an `Int` (`int`), a `Long` (`long`), a `Bool` (`boolean`) or,
      for the other primitive types, an `Other` value. */
  predicate Fits(kind: Kind, v: Value) {
    match kind
    case StringType => v.Str?
    case IntegerType => v.Int? && IntMin <= v.i <= IntMax
    case LongType => v.Long? && LongMin <= v.l <= LongMax
    case BooleanType => v.Bool?
    case ListType(_) => v.ListVal?
    case PrimitiveType(name) =>
      if name == "int" then v.Int? && IntMin <= v.i <= IntMax
      else if name == "long" then v.Long? && LongMin <= v.l <= LongMax
      else if name == "boolean" then v.Bool?
      else v.Other?
    case OtherType(_) => v.Other?
  }

  /** `Field.set` accepts the value: `null` for any reference type, or a
      value of the declared type. Setting `null` into a primitive field
      raises `IllegalArgumentException`. */
  predicate Assignable(kind: Kind, v: Value) {
    if v == Null then !kind.PrimitiveType? else Fits(kind, v)
  }

  /** An object Java can hold: every declared field's value can be stored
      in it, so in particular a primitive field is never null (an `int`
      left unset holds 0). */
  predicate WellTyped(o: Obj) {
    forall f :: f in o.cls.fields ==> Assignable(f.kind, FieldValue(o.values, f.name))
  }

  /** `String.valueOf(v)`, which is also what `StringBuilder.append(v)`
      inserts; a list prints as `[a, b]`. */
  function ToText(v: Value): (r: string)
    ensures v.Str? ==> r == v.s
    ensures v.Int? && IntMin <= v.i <= IntMax ==> ParseDecimal(r, IntMin, IntMax) == Some(v.i)
    ensures v.Long? && LongMin <= v.l <= LongMax ==> ParseDecimal(r, LongMin, LongMax) == Some(v.l)
    ensures v.Bool? ==> (EqualsIgnoreCase(r, "true") <==> v.b)
    decreases v
  {
    match v
    case Null => "null"
    case Str(s) => s
    case Int(i) =>
      if IntMin <= i <= IntMax then DecimalRoundTrip(i, IntMin, IntMax); IntToDecimal(i)
      else IntToDecimal(i)
    case Long(l) =>
      if LongMin <= l <= LongMax then DecimalRoundTrip(l, LongMin, LongMax); IntToDecimal(l)
      else IntToDecimal(l)
    case Bool(b) => if b then "true" else "false"
    case ListVal(items) =>
      "[" + Join(seq(|items|, i requires 0 <= i < |items| => ToText(items[i])), ", ") + "]"
    case Other(t) => t
  }
}

=== FILE: metadata.dfy ===
/** `ClassCacheUtils`: the table name and the ordered column-to-field map
    of a class, each computed by a loader and memoised per class.
 */
module Metadata {
  import opened Results
  import opened Strings
  import opened Naming
  import opened Classes

  // ---------------------------------------------------------------------
  // Table name
  // ---------------------------------------------------------------------

  /** The table-name loader: the `@SqlTable` name when the class carries
      the annotation, otherwise `toUnderscore` of the fully-qualified class
      name. */
  function LoadTableName(c: ClassDesc): (r: string)
    ensures c.sqlTable.Some? ==> r == c.sqlTable.value
    ensures c.sqlTable.None? ==> NoUpper(r) && |r| >= |c.name|
  {
    match c.sqlTable
    case Some(t) => t
    case None => ToUnderscore(c.name)
  }

  /** Without `@SqlTable`, the derived name keeps the (lower-case) package
      prefix and puts a separator before the converted simple name: the
      table is not the snake-case simple name alone. */
  lemma TableNameKeepsPackage(c: ClassDesc, pkg: string, simple: string)
    requires c.sqlTable.None? && c.name == pkg + simple
    requires |pkg| > 0 && NoUpper(pkg)
    requires |simple| > 0 && IsUpper(simple[0])
    ensures LoadTableName(c) == pkg + "_" + ToUnderscore(simple)
  {
    ToUnderscoreAppendWord(pkg, simple);
    ToUnderscoreFixedPoint(pkg);
  }

  /** The table of a class `com.example.UserOrder`: with `@SqlTable` its
      declared name, without it `com.example._user_order`. */
  lemma TableNameExamples(fields: seq<Field>, init: Option<Instance>)
    ensures LoadTableName(ClassDesc("com.example.UserOrder", None, fields, init)) == "com.example._user_order"
    ensures LoadTableName(ClassDesc("com.example.UserOrder", Some("user_order"), fields, init)) == "user_order"
  {
    ToUnderscoreQualifiedClassName();
  }

  // ---------------------------------------------------------------------
  // Column map: an insertion-ordered map (`LinkedHashMap<String, Field>`)
  // ---------------------------------------------------------------------

  /** Entries in insertion order. */
  type ColumnMap = seq<(string, Field)>

  function Keys(m: ColumnMap): (ks: seq<string>)
    ensures |ks| == |m|
    ensures forall i :: 0 <= i < |m| ==> ks[i] == m[i].0
  {
    seq(|m|, i requires 0 <= i < |m| => m[i].0)
  }

  predicate UniqueKeys(m: ColumnMap) {
    forall i, j :: 0 <= i < j < |m| ==> m[i].0 != m[j].0
  }

  /** The position of the first entry with key `k`, or -1. */
  function IndexOf(m: ColumnMap, k: string): (i: int)
    ensures -1 <= i < |m|
    ensures i >= 0 ==> m[i].0 == k && forall j :: 0 <= j < i ==> m[j].0 != k
    ensures i < 0 ==> forall j :: 0 <= j < |m| ==> m[j].0 != k
  {
    if |m| == 0 then -1
    else if m[0].0 == k then 0
    else
      var i := IndexOf(m[1..], k);
      if i < 0 then -1 else i + 1
  }

  /** `map.get(k)`; `None` is `null`. */
  function Lookup(m: ColumnMap, k: string): (r: Option<Field>)
    ensures r.Some? <==> k in Keys(m)
    ensures r.Some? ==> (k, r.value) in m
  {
    var i := IndexOf(m, k);
    if i < 0 then None else Some(m[i].1)
  }

  /** `IndexOf` is determined by its contract: the first position holding `k`. */
  lemma IndexOfIs(m: ColumnMap, k: string, i: int)
    requires -1 <= i < |m|
    requires i >= 0 ==> m[i].0 == k
    requires forall j :: 0 <= j < |m| && (i < 0 || j < i) ==> m[j].0 != k
    ensures IndexOf(m, k) == i
  {
  }

  lemma PutLookups(m: ColumnMap, k: string, f: Field, r: ColumnMap)
    requires var i := IndexOf(m, k); r == if i < 0 then m + [(k, f)] else m[i := (k, f)]
    ensures Lookup(r, k) == Some(f)
    ensures forall k' :: k' != k ==> Lookup(r, k') == Lookup(m, k')
  {
    var i := IndexOf(m, k);
    IndexOfIs(r, k, if i < 0 then |m| else i);
    forall k' | k' != k
      ensures Lookup(r, k') == Lookup(m, k')
    {
      IndexOfIs(r, k', IndexOf(m, k'));
    }
  }

  /** `map.put(k, f)`: an existing key keeps its position and gets the new
      value; a new key is appended. */
  function Put(m: ColumnMap, k: string, f: Field): (r: ColumnMap)
    ensures Lookup(r, k) == Some(f)
    ensures forall k' :: k' != k ==> Lookup(r, k') == Lookup(m, k')
    ensures Keys(r) == if k in Keys(m) then Keys(m) else Keys(m) + [k]
    ensures UniqueKeys(m) ==> UniqueKeys(r)
  {
    var i := IndexOf(m, k);
    var r := if i < 0 then m + [(k, f)] else m[i := (k, f)];
    PutLookups(m, k, f, r);
    r
  }

  /** The fields the column loader keeps: neither `@SqlIgnore` nor static. */
  predicate Mapped(f: Field) {
    !f.sqlIgnore && !f.isStatic
  }

  /** A field's column: the `@SqlColumn` name whenever the annotation is
      present, even when it is the empty default, otherwise `toUnderscore`
      of the field name. */
  function ColumnKey(f: Field): string {
    match f.sqlColumn
    case Some(a) => a.name
    case None => ToUnderscore(f.name)
  }

  /** The column of an annotated field is the annotation's name, used
      verbatim even when it holds upper-case letters or is empty; the
      column of any other field is its name lower-cased, with `_` inserted
      and nothing else changed. */
  lemma ColumnKeyRule(f: Field)
    ensures f.sqlColumn.Some? ==> ColumnKey(f) == f.sqlColumn.value.name
    ensures f.sqlColumn.None? ==>
      NoUpper(ColumnKey(f)) && Remove(ColumnKey(f), '_') == Remove(LowerCase(f.name), '_')
  {
    UnderscoreOnlyInsertsSeparators(f.name);
  }

  /** `r` is a column map for the fields `fs`: unique keys, a key for
      every mapped field, and every entry a mapped field under its own
      column. */
  ghost predicate ColumnsFrom(fs: seq<Field>, r: ColumnMap) {
    && UniqueKeys(r)
    && (forall i :: 0 <= i < |fs| && Mapped(fs[i]) ==> ColumnKey(fs[i]) in Keys(r))
    && (forall k :: k in Keys(r) ==> exists i :: 0 <= i < |fs| && Mapped(fs[i]) && ColumnKey(fs[i]) == k)
    && (forall k :: Lookup(r, k).Some? ==>
          Lookup(r, k).value in fs && Mapped(Lookup(r, k).value) && ColumnKey(Lookup(r, k).value) == k)
  }

  /** One iteration of the loader's loop keeps `ColumnsFrom`. */
  lemma LoadStep(prefix: seq<Field>, f: Field, m: ColumnMap)
    requires ColumnsFrom(prefix, m)
    ensures ColumnsFrom(prefix + [f], if Mapped(f) then Put(m, ColumnKey(f), f) else m)
  {
    var fs := prefix + [f];
    assert forall i :: 0 <= i < |prefix| ==> fs[i] == prefix[i];
    assert fs[|prefix|] == f;
    if Mapped(f) {
      var r := Put(m, ColumnKey(f), f);
      forall k | k in Keys(r)
        ensures exists i :: 0 <= i < |fs| && Mapped(fs[i]) && ColumnKey(fs[i]) == k
      {
        if k == ColumnKey(f) {
          assert Mapped(fs[|prefix|]) && ColumnKey(fs[|prefix|]) == k;
        } else {
          assert k in Keys(m);
          var i :| 0 <= i < |prefix| && Mapped(prefix[i]) && ColumnKey(prefix[i]) == k;
          assert fs[i] == prefix[i];
        }
      }
      forall i | 0 <= i < |fs| && Mapped(fs[i])
        ensures ColumnKey(fs[i]) in Keys(r)
      {
        if i < |prefix| {
          assert fs[i] == prefix[i];
          assert ColumnKey(fs[i]) in Keys(m);
        }
      }
    } else {
      forall k | k in Keys(m)
        ensures exists i :: 0 <= i < |fs| && Mapped(fs[i]) && ColumnKey(fs[i]) == k
      {
        var i :| 0 <= i < |prefix| && Mapped(prefix[i]) && ColumnKey(prefix[i]) == k;
        assert fs[i] == prefix[i];
      }
    }
  }

  /** The map the column loader's loop has built after visiting the
      fields `fs`, in order. */
  function LoadColumns(fs: seq<Field>): (r: ColumnMap)
    ensures ColumnsFrom(fs, r)
  {
    if |fs| == 0 then []
    else
      var prefix := fs[..|fs| - 1];
      var m := LoadColumns(prefix);
      var f := fs[|fs| - 1];
      assert prefix + [f] == fs;
      LoadStep(prefix, f, m);
      if Mapped(f) then Put(m, ColumnKey(f), f) else m
  }

  /** The column-map loader: a class's column map, excluding exactly the
      `@SqlIgnore` and static fields. */
  function LoadColumnMap(c: ClassDesc): (r: ColumnMap)
    ensures UniqueKeys(r)
    ensures forall f :: f in c.fields && Mapped(f) ==> ColumnKey(f) in Keys(r)
    ensures forall k :: k in Keys(r) ==> exists f :: f in c.fields && Mapped(f) && ColumnKey(f) == k
    ensures forall k :: Lookup(r, k).Some? ==>
      Lookup(r, k).value in c.fields && Mapped(Lookup(r, k).value) && ColumnKey(Lookup(r, k).value) == k
  {
    LoadColumns(c.fields)
  }

  /** The keys of the mapped fields in declaration order, duplicates kept. */
  function MappedKeys(fs: seq<Field>): seq<string> {
    if |fs| == 0 then []
    else MappedKeys(fs[..|fs| - 1]) + (if Mapped(fs[|fs| - 1]) then [ColumnKey(fs[|fs| - 1])] else [])
  }

  /** `ks` with every repeated element after its first occurrence removed. */
  function FirstOccurrences(ks: seq<string>): (r: seq<string>)
    ensures forall k :: k in r <==> k in ks
  {
    if |ks| == 0 then []
    else
      var prefix := ks[..|ks| - 1];
      assert ks == prefix + [ks[|ks| - 1]];
      FirstOccurrences(prefix) + (if ks[|ks| - 1] in prefix then [] else [ks[|ks| - 1]])
  }

  /** The keys appear in the order in which their first field was declared,
      each once, however many fields share a column name. */
  lemma {:induction false} ColumnMapKeyOrder(fs: seq<Field>)
    ensures Keys(LoadColumns(fs)) == FirstOccurrences(MappedKeys(fs))
  {
    if |fs| > 0 {
      var prefix := fs[..|fs| - 1];
      var f := fs[|fs| - 1];
      ColumnMapKeyOrder(prefix);
      var m := LoadColumns(prefix);
      if Mapped(f) {
        var mk := MappedKeys(prefix);
        var k := ColumnKey(f);
        assert MappedKeys(fs) == mk + [k];
        assert (mk + [k])[..|mk|] == mk;
        assert FirstOccurrences(mk + [k]) == FirstOccurrences(mk) + (if k in mk then [] else [k]);
        assert k in Keys(m) <==> k in mk;
        assert LoadColumns(fs) == Put(m, k, f);
      } else {
        assert MappedKeys(fs) == MappedKeys(prefix);
      }
    }
  }

  /** A later field with the same column name replaces the value: each
      key maps to the last mapped field that has it. */
  lemma {:induction false} ColumnMapLastWins(fs: seq<Field>, i: nat)
    requires i < |fs| && Mapped(fs[i])
    requires forall j :: i < j < |fs| ==> !(Mapped(fs[j]) && ColumnKey(fs[j]) == ColumnKey(fs[i]))
    ensures Lookup(LoadColumns(fs), ColumnKey(fs[i])) == Some(fs[i])
  {
    if i < |fs| - 1 {
      var prefix := fs[..|fs| - 1];
      assert prefix[i] == fs[i];
      forall j | i < j < |prefix|
        ensures !(Mapped(prefix[j]) && ColumnKey(prefix[j]) == ColumnKey(prefix[i]))
      {
        assert prefix[j] == fs[j];
      }
      ColumnMapLastWins(prefix, i);
    }
  }

  /** The mapped fields paired with their columns, in declaration order. */
  function MappedEntries(fs: seq<Field>): (r: ColumnMap)
    ensures Keys(r) == MappedKeys(fs)
  {
    if |fs| == 0 then []
    else
      var f := fs[|fs| - 1];
      MappedEntries(fs[..|fs| - 1]) + (if Mapped(f) then [(ColumnKey(f), f)] else [])
  }

  predicate Distinct(ks: seq<string>) {
    forall i, j :: 0 <= i < j < |ks| ==> ks[i] != ks[j]
  }

  /** When no two mapped fields share a column name, the column map is
      every mapped field, in declaration order, under its column. */
  lemma {:induction false} ColumnMapInDeclarationOrder(fs: seq<Field>)
    requires Distinct(MappedKeys(fs))
    ensures LoadColumns(fs) == MappedEntries(fs)
  {
    if |fs| > 0 {
      var prefix := fs[..|fs| - 1];
      var f := fs[|fs| - 1];
      var mk := MappedKeys(prefix);
      assert Distinct(mk) by {
        assert forall i :: 0 <= i < |mk| ==> MappedKeys(fs)[i] == mk[i];
      }
      ColumnMapInDeclarationOrder(prefix);
      if Mapped(f) {
        assert MappedKeys(fs) == mk + [ColumnKey(f)];
        assert ColumnKey(f) !in mk by {
          forall i | 0 <= i < |mk|
            ensures mk[i] != ColumnKey(f)
          {
            assert MappedKeys(fs)[i] == mk[i];
            assert MappedKeys(fs)[|mk|] == ColumnKey(f);
          }
        }
      }
    }
  }

  // ---------------------------------------------------------------------
  // Memoised lookups (`getTableName`, `getColumnFieldMap`)
  // ---------------------------------------------------------------------

  /** Every memoised entry is what the loader yields for its key. */
  predicate Coherent<K(!new), V(==)>(memo: map<K, V>, load: K -> Option<V>) {
    forall k :: k in memo ==> load(k) == Some(memo[k])
  }

  /** A `LoadingCache.get` as a memo table, with a loader that may fail
      (`None`: the checked-exception path that makes the lookup return
      `null`). A loaded value is stored; a failed load stores nothing.
      Returns the value and the memo table afterwards. */
  function MemoGet<K(!new), V(==)>(memo: map<K, V>, k: K, load: K -> Option<V>): (r: (Option<V>, map<K, V>))
    ensures k in memo ==> r == (Some(memo[k]), memo)
    ensures k !in memo ==> r.0 == load(k)
    ensures r.0.Some? <==> k in r.1
    ensures r.0.Some? ==> r.1[k] == r.0.value
    ensures forall k' :: k' != k ==> (k' in r.1 <==> k' in memo)
    ensures forall k' :: k' != k && k' in memo ==> r.1[k'] == memo[k']
  {
    if k in memo then (Some(memo[k]), memo)
    else
      match load(k)
      case Some(v) => (Some(v), memo[k := v])
      case None => (None, memo)
  }

  /** On a coherent memo table a lookup returns exactly what the loader
      would, and leaves the table coherent. */
  lemma MemoReturnsLoaderValue<K(!new), V>(memo: map<K, V>, k: K, load: K -> Option<V>)
    requires Coherent(memo, load)
    ensures MemoGet(memo, k, load).0 == load(k)
    ensures Coherent(MemoGet(memo, k, load).1, load)
  {
  }

  /** Asking again for the same key returns the same value and changes
      nothing further. */
  lemma MemoRepeatable<K(!new), V>(memo: map<K, V>, k: K, load: K -> Option<V>)
    ensures var (v1, m1) := MemoGet(memo, k, load);
            MemoGet(m1, k, load) == (v1, m1)
  {
  }

  function TableLoader(c: ClassDesc): Option<string> {
    Some(LoadTableName(c))
  }

  function ColumnMapLoader(c: ClassDesc): Option<ColumnMap> {
    Some(LoadColumnMap(c))
  }

  /** `getTableName`: the memoised table-name loader. */
  function GetTableName(memo: map<ClassDesc, string>, c: ClassDesc): (r: (Option<string>, map<ClassDesc, string>))
    ensures Coherent(memo, TableLoader) ==> r.0 == Some(LoadTableName(c)) && Coherent(r.1, TableLoader)
    ensures forall c' :: c' != c && c' in memo ==> c' in r.1 && r.1[c'] == memo[c']
  {
    MemoGet(memo, c, TableLoader)
  }

  /** `getColumnFieldMap`: the memoised column-map loader. */
  function GetColumnFieldMap(memo: map<ClassDesc, ColumnMap>, c: ClassDesc): (r: (Option<ColumnMap>, map<ClassDesc, ColumnMap>))
    ensures Coherent(memo, ColumnMapLoader) ==> r.0 == Some(LoadColumnMap(c)) && Coherent(r.1, ColumnMapLoader)
    ensures forall c' :: c' != c && c' in memo ==> c' in r.1 && r.1[c'] == memo[c']
  {
    MemoGet(memo, c, ColumnMapLoader)
  }
}

=== FILE: naming.dfy ===
/** Identifier case conversion used to derive table and column names.

    Both `ClassCacheUtils` and `SqlUtils` define a private `toUnderscore`
    that delegates to Guava's `CaseFormat.UPPER_CAMEL.to(LOWER_UNDERSCORE, s)`.
    Guava's camel-case word boundary is an ASCII upper-case letter and each
    word is lower-cased with `Ascii.toLowerCase`; an upper-case letter at
    index 0 starts the first word without a separator. The per-character
    effect is therefore: the first character is lower-cased, every later
    upper-case letter becomes `_` followed by its lower-case form, and every
    other character is kept.
 */
module Naming {
  import opened Strings

  predicate NoUpper(s: string) {
    forall i :: 0 <= i < |s| ==> !IsUpper(s[i])
  }

  /** `NoUpper`, checked one character at a time. */
  predicate NoUpperScan(s: string) {
    |s| == 0 || (!IsUpper(s[0]) && NoUpperScan(s[1..]))
  }

  lemma {:induction false} NoUpperByScan(s: string)
    requires NoUpperScan(s)
    ensures NoUpper(s)
  {
    if |s| > 0 {
      NoUpperByScan(s[1..]);
      assert forall i :: 1 <= i < |s| ==> s[i] == s[1..][i - 1];
    }
  }

  /** The number of upper-case letters in `s`. */
  function CountUpper(s: string): nat {
    if |s| == 0 then 0 else (if IsUpper(s[0]) then 1 else 0) + CountUpper(s[1..])
  }

  /** Conversion of everything after the first character: each upper-case
      letter opens a new word. */
  function WordBreaks(s: string): (r: string)
    ensures NoUpper(r)
    ensures |r| == |s| + CountUpper(s)
  {
    if |s| == 0 then ""
    else (if IsUpper(s[0]) then ['_', ToLower(s[0])] else [s[0]]) + WordBreaks(s[1..])
  }

  /** `toUnderscore` (camel case to lower underscore case). */
  function ToUnderscore(s: string): (r: string)
    ensures NoUpper(r)
    ensures |s| == 0 ==> r == ""
    ensures |s| > 0 ==> |r| == |s| + CountUpper(s[1..]) && r[0] == ToLower(s[0])
  {
    if |s| == 0 then "" else [ToLower(s[0])] + WordBreaks(s[1..])
  }

  lemma {:induction false} WordBreaksRemove(s: string)
    ensures Remove(WordBreaks(s), '_') == Remove(LowerCase(s), '_')
  {
    if |s| > 0 {
      WordBreaksRemove(s[1..]);
      var head := if IsUpper(s[0]) then ['_', ToLower(s[0])] else [s[0]];
      RemoveAppend(head, WordBreaks(s[1..]), '_');
      RemoveAppend([ToLower(s[0])], LowerCase(s[1..]), '_');
      assert LowerCase(s) == [ToLower(s[0])] + LowerCase(s[1..]);
      if IsUpper(s[0]) {
        assert head == ['_'] + [ToLower(s[0])];
        RemoveAppend(['_'], [ToLower(s[0])], '_');
      }
    }
  }

  /** The conversion only lower-cases letters and inserts `_` separators:
      with every `_` deleted, the output is the lower-cased input with every
      `_` deleted. */
  lemma UnderscoreOnlyInsertsSeparators(s: string)
    ensures Remove(ToUnderscore(s), '_') == Remove(LowerCase(s), '_')
  {
    if |s| > 0 {
      WordBreaksRemove(s[1..]);
      RemoveAppend([ToLower(s[0])], WordBreaks(s[1..]), '_');
      RemoveAppend([ToLower(s[0])], LowerCase(s[1..]), '_');
      assert LowerCase(s) == [ToLower(s[0])] + LowerCase(s[1..]);
    }
  }

  lemma {:induction false} WordBreaksFixedPoint(s: string)
    requires NoUpper(s)
    ensures WordBreaks(s) == s
  {
    if |s| > 0 {
      WordBreaksFixedPoint(s[1..]);
      assert s == [s[0]] + s[1..];
    }
  }

  /** A name is left unchanged exactly when it has no upper-case letter;
      hence converting twice is the same as converting once. */
  lemma ToUnderscoreFixedPoint(s: string)
    ensures ToUnderscore(s) == s <==> NoUpper(s)
    ensures ToUnderscore(ToUnderscore(s)) == ToUnderscore(s)
  {
    if NoUpper(s) && |s| > 0 {
      WordBreaksFixedPoint(s[1..]);
      assert s == [s[0]] + s[1..];
    }
    var t := ToUnderscore(s);
    if |t| > 0 {
      WordBreaksFixedPoint(t[1..]);
      assert t == [t[0]] + t[1..];
    }
  }

  /** The conversion works word by word: converting a concatenation after
      the first character is converting each part. */
  lemma {:induction false} WordBreaksAppend(a: string, b: string)
    ensures WordBreaks(a + b) == WordBreaks(a) + WordBreaks(b)
  {
    if |a| > 0 {
      assert (a + b)[1..] == a[1..] + b;
      WordBreaksAppend(a[1..], b);
    } else {
      assert a + b == b;
    }
  }

  /** Splitting a concatenation at its first character; kept as a lemma so
      the inductive proofs below see the fact without re-deriving it. */
  lemma HeadTail(a: string, b: string)
    requires |a| > 0
    ensures (a + b)[0] == a[0] && (a + b)[1..] == a[1..] + b
  {
  }

  /** Re-association of the separator step; kept separate to keep the
      inductive step small. */
  lemma Regroup(c: char, a: string, t: string)
    ensures [c] + (a + ("_" + t)) == ([c] + a) + "_" + t
  {
  }

  /** After the first character, an upper-case letter opens a word with a
      separator. */
  lemma WordBreaksUpperHead(s: string)
    requires |s| > 0 && IsUpper(s[0])
    ensures WordBreaks(s) == "_" + ToUnderscore(s)
  {
    var x, w := ToLower(s[0]), WordBreaks(s[1..]);
    assert WordBreaks(s) == ['_', x] + w;
    assert ['_', x] + w == "_" + ([x] + w);
  }

  /** Word by word: appending a word that starts with an upper-case letter
      appends a separator and the converted word. */
  lemma ToUnderscoreAppendWord(a: string, b: string)
    requires |a| > 0 && |b| > 0 && IsUpper(b[0])
    ensures ToUnderscore(a + b) == ToUnderscore(a) + "_" + ToUnderscore(b)
  {
    HeadTail(a, b);
    WordBreaksAppend(a[1..], b);
    WordBreaksUpperHead(b);
    Regroup(ToLower(a[0]), WordBreaks(a[1..]), ToUnderscore(b));
  }

  lemma ExampleWordOrder()
    ensures ToUnderscore("order") == "order"
    ensures ToUnderscore("Order") == "order"
  {
    NoUpperByScan("order");
    ToUnderscoreFixedPoint("order");
    NoUpperByScan("rder");
    WordBreaksFixedPoint("rder");
  }

  lemma ExampleWordUser()
    ensures ToUnderscore("User") == "user"
  {
    NoUpperByScan("ser");
    WordBreaksFixedPoint("ser");
  }

  lemma ExampleWordId()
    ensures ToUnderscore("Id") == "id"
  {
  }

  /** A camel-case field name becomes a lower underscore column name. */
  lemma ToUnderscoreFieldName()
    ensures ToUnderscore("orderId") == "order_id"
  {
    assert "orderId" == "order" + "Id";
    ToUnderscoreAppendWord("order", "Id");
    ExampleWordOrder();
    ExampleWordId();
    assert "order" + "_" + "id" == "order_id";
  }

  /** A simple class name loses the separator before its first word. */
  lemma ToUnderscoreSimpleClassName()
    ensures ToUnderscore("UserOrder") == "user_order"
  {
    assert "UserOrder" == "User" + "Order";
    ToUnderscoreAppendWord("User", "Order");
    ExampleWordUser();
    ExampleWordOrder();
    assert "user" + "_" + "order" == "user_order";
  }

  /** The literal splits the qualified-name example relies on. */
  lemma QualifiedNameParts()
    ensures "com.example.UserOrder" == "com.example." + "UserOrder"
    ensures "com.example." + "_" + "user_order" == "com.example._user_order"
  {
  }

  /** A fully-qualified class name keeps its package and gains a separator
      before the simple name. */
  lemma ToUnderscoreQualifiedClassName()
    ensures ToUnderscore("com.example.UserOrder") == "com.example._user_order"
  {
    QualifiedNameParts();
    ToUnderscoreAppendWord("com.example.", "UserOrder");
    NoUpperByScan("com.example.");
    ToUnderscoreFixedPoint("com.example.");
    ToUnderscoreSimpleClassName();
  }

  // ---------------------------------------------------------------------
  // toCamelCase
  // ---------------------------------------------------------------------

  /** `toCamelCase` as written: its body performs the same camel-to-underscore
      conversion as `toUnderscore`, although its documentation describes the
      reverse direction. */
  function ToCamelCaseAsWritten(s: string): (r: string)
    ensures NoUpper(r)
  {
    ToUnderscore(s)
  }

  /** Underscore-to-camel conversion (lower underscore to lower camel, as
      Guava's `CaseFormat.LOWER_UNDERSCORE.to(LOWER_CAMEL, s)`): each `_` is
      dropped and the letter after it upper-cased; every other letter is
      lower-cased. `capitalize` records that the previous character was `_`. */
  function CamelFrom(s: string, capitalize: bool): (r: string)
    ensures '_' !in r
  {
    if |s| == 0 then ""
    else if s[0] == '_' then CamelFrom(s[1..], true)
    else [if capitalize then ToUpper(s[0]) else ToLower(s[0])] + CamelFrom(s[1..], false)
  }

  /** The conversion `toCamelCase` documents (underscore to camel case). */
  function ToCamelCase(s: string): (r: string)
    ensures '_' !in r
  {
    CamelFrom(s, false)
  }

  /** The as-written `toCamelCase` never removes an underscore, so it
      cannot turn a column name back into its field name. */
  lemma ToCamelCaseAsWrittenKeepsUnderscores()
    ensures ToCamelCaseAsWritten("order_id") == "order_id"
  {
    NoUpperByScan("order_id");
    ToUnderscoreFixedPoint("order_id");
  }

  /** The documented conversion turns the column name back into the field
      name. */
  lemma ToCamelCaseRecoversFieldName()
    ensures ToCamelCase("order_id") == "orderId"
  {
    ToUnderscoreFieldName();
    assert '_' !in "orderId";
    CamelCaseRoundTrip("orderId");
  }

  /** Camel-casing undoes one step of `WordBreaks`: an upper-case letter
      that became `_` and its lower-case form, or any other letter. */
  lemma CamelStep(c: char, rest: string)
    requires c != '_'
    ensures IsUpper(c) ==> CamelFrom(['_', ToLower(c)] + rest, false) == [c] + CamelFrom(rest, false)
    ensures !IsUpper(c) ==> CamelFrom([c] + rest, false) == [c] + CamelFrom(rest, false)
  {
    if IsUpper(c) {
      var tail := [ToLower(c)] + rest;
      assert ['_', ToLower(c)] + rest == ['_'] + tail;
      assert (['_'] + tail)[1..] == tail;
      assert tail[1..] == rest;
    } else {
      assert ([c] + rest)[1..] == rest;
    }
  }

  lemma {:induction false} CamelFromWordBreaks(t: string)
    requires '_' !in t
    ensures CamelFrom(WordBreaks(t), false) == t
  {
    if |t| > 0 {
      assert t[0] in t;
      CamelFromWordBreaks(t[1..]);
      CamelStep(t[0], WordBreaks(t[1..]));
      assert t == [t[0]] + t[1..];
    }
  }

  /** Round trip: a lower-camel identifier without underscores converted to
      a column name and back is the identifier again. */
  lemma CamelCaseRoundTrip(s: string)
    requires '_' !in s
    requires |s| > 0 ==> !IsUpper(s[0])
    ensures ToCamelCase(ToUnderscore(s)) == s
  {
    if |s| > 0 {
      CamelFromWordBreaks(s[1..]);
      var u := ToUnderscore(s);
      assert u == [s[0]] + WordBreaks(s[1..]);
      assert u[1..] == WordBreaks(s[1..]);
      assert s == [s[0]] + s[1..];
    }
  }
}

=== FILE: resultmapper.dfy ===
/** `SqlUtils`, result side: turning the text lines a query produces (one
    row per line, columns separated by a one-character separator, by
    default U+0001) or in-memory rows back into objects and values.
 */
module ResultMapper {
  import opened Results
  import opened Strings
  import opened Classes
  import opened Metadata

  /** The default column separator, the regular expression `\x01`. */
  const ColumnSeparator: char := '\U{0001}'

  // ---------------------------------------------------------------------
  // Single values
  // ---------------------------------------------------------------------

  /** The scalar types a cell is converted to. */
  predicate Scalar(kind: Kind) {
    kind == StringType || kind == IntegerType || kind == LongType || kind == BooleanType
  }

  /** `parseValue(clz, val)`: converts one cell to the target type. A
      `String` target takes the text as it is, even when blank; any other
      target turns a blank text into null; `Integer` and `Long` parse
      decimal text in their range; `Boolean` is true exactly for `true` in
      any case. Any other target, and any value that is not text, is
      unsupported. */
  function ParseValue(kind: Kind, v: Value): (r: Outcome<Value>)
    ensures v == Null ==> r == Returned(Null)
    ensures r.Returned? && r.value != Null ==> Fits(kind, r.value)
    ensures v.Str? && kind == StringType ==> r == Returned(v)
    ensures v.Str? && kind != StringType && IsBlank(v.s) ==> r == Returned(Null)
    ensures v.Str? && !Scalar(kind) && !IsBlank(v.s) ==> r == Threw(UnsupportedType)
    ensures !v.Null? && !v.Str? ==> r == Threw(UnsupportedType)
    ensures r.Threw? ==> r.error == NumberFormat || r.error == UnsupportedType
    ensures r == Threw(NumberFormat) <==>
      v.Str? && !IsBlank(v.s) &&
      ((kind == IntegerType && ParseDecimal(v.s, IntMin, IntMax).None?) ||
       (kind == LongType && ParseDecimal(v.s, LongMin, LongMax).None?))
    ensures v.Str? && kind == IntegerType && ParseDecimal(v.s, IntMin, IntMax).Some? ==>
      r == Returned(Int(ParseDecimal(v.s, IntMin, IntMax).value))
    ensures v.Str? && kind == LongType && ParseDecimal(v.s, LongMin, LongMax).Some? ==>
      r == Returned(Long(ParseDecimal(v.s, LongMin, LongMax).value))
    ensures v.Str? && kind == BooleanType && !IsBlank(v.s) ==> r == Returned(Bool(EqualsIgnoreCase(v.s, "true")))
  {
    match v
    case Null => Returned(Null)
    case Str(s) =>
      if kind == StringType then Returned(v)
      else if IsBlank(s) then Returned(Null)
      else if kind == IntegerType then
        match ParseDecimal(s, IntMin, IntMax)
        case Some(n) => Returned(Int(n))
        case None => Threw(NumberFormat)
      else if kind == LongType then
        match ParseDecimal(s, LongMin, LongMax)
        case Some(n) => Returned(Long(n))
        case None => Threw(NumberFormat)
      else if kind == BooleanType then Returned(Bool(EqualsIgnoreCase(s, "true")))
      else Threw(UnsupportedType)
    case _ => Threw(UnsupportedType)
  }

  lemma DecimalNotBlank(n: int)
    ensures !IsBlank(IntToDecimal(n))
  {
    var s := IntToDecimal(n);
    if n >= 0 {
      assert IsDigit(s[0]);
    } else {
      assert s[0] == '-';
    }
  }

  /** An `Integer` cell holding the decimal text of a number outside the
      `int` range, such as `2147483648`, throws `NumberFormatException`;
      the same text fits a `Long` cell. */
  lemma IntegerOverflowRejected(n: int)
    requires IntMax < n <= LongMax
    ensures ParseValue(IntegerType, Str(IntToDecimal(n))) == Threw(NumberFormat)
    ensures ParseValue(LongType, Str(IntToDecimal(n))) == Returned(Long(n))
  {
    DecimalNotBlank(n);
    DecimalOutOfRange(n, IntMin, IntMax);
    DecimalRoundTrip(n, LongMin, LongMax);
  }

  /** A cell with a letter after its first character, such as `1a`,
      throws `NumberFormatException` for an `Integer` or `Long` field. */
  lemma TrailingLetterRejected(s: string, k: int)
    requires 0 < k < |s| && !IsDigit(s[k]) && !IsBlank(s)
    ensures ParseValue(IntegerType, Str(s)) == Threw(NumberFormat)
    ensures ParseValue(LongType, Str(s)) == Threw(NumberFormat)
  {
    NonDigitRejected(s, k, IntMin, IntMax);
    NonDigitRejected(s, k, LongMin, LongMax);
  }

  /** Blank means Java whitespace only: an em space (U+2003) is blank, so
      an `Integer` cell holding it reads as null, while a non-breaking space
      (U+00A0) is not, so the same cell fails to parse. */
  lemma BlankFollowsJavaWhitespace()
    ensures ParseValue(IntegerType, Str("\U{2003}")) == Returned(Null)
    ensures ParseValue(IntegerType, Str("\U{00A0}")) == Threw(NumberFormat)
  {
    assert IsWhitespace("\U{2003}"[0]);
    assert !IsWhitespace("\U{00A0}"[0]);
    assert !IsDigit("\U{00A0}"[0]);
  }

  /** `Field.set` after `parseValue` fails only for a primitive field: a
      converted value is null or of the field's own type, and null cannot
      be stored in a primitive field. */
  lemma ConvertedAssignable(kind: Kind, s: string)
    requires ParseValue(kind, Str(s)).Returned?
    ensures Assignable(kind, ParseValue(kind, Str(s)).value) <==> !kind.PrimitiveType?
  {
  }

  /** Round trip: the text `String.valueOf` gives a value of a scalar type
      converts back to that same value. */
  lemma ParseValueRoundTrip(kind: Kind, v: Value)
    requires Scalar(kind) && Fits(kind, v)
    ensures ParseValue(kind, Str(ToText(v))) == Returned(v)
  {
    match v
    case Int(i) =>
      DecimalNotBlank(i);
      DecimalRoundTrip(i, IntMin, IntMax);
    case Long(l) =>
      DecimalNotBlank(l);
      DecimalRoundTrip(l, LongMin, LongMax);
    case Bool(b) =>
      assert !IsWhitespace(ToText(v)[0]);
      if !b {
        assert !EqualsIgnoreCase("false", "true");
      }
    case _ =>
  }

  /** `Boolean.parseBoolean` is true for `true` in any case. */
  lemma BooleanUpperCaseTrue()
    ensures ParseValue(BooleanType, Str("TRUE")) == Returned(Bool(true))
  {
    assert !IsWhitespace("TRUE"[0]);
    assert EqualsIgnoreCase("TRUE", "true");
  }

  /** `Boolean.parseBoolean` is false for any other text. */
  lemma BooleanOtherTextFalse()
    ensures ParseValue(BooleanType, Str("yes")) == Returned(Bool(false))
  {
    assert !IsWhitespace("yes"[0]);
  }

  /** `parseInt` reads `+5` as 5. */
  lemma IntegerLeadingPlus()
    ensures ParseValue(IntegerType, Str("+5")) == Returned(Int(5))
  {
    assert DigitsValue("5") == 5;
    ParseDecimalIgnoresPlusAndZeros("5", IntMin, IntMax);
  }

  /** `parseInt` reads `007` as 7. */
  lemma IntegerLeadingZeros()
    ensures ParseValue(IntegerType, Str("007")) == Returned(Int(7))
  {
    assert DigitsValue("7") == 7;
    assert ParseDecimal("7", IntMin, IntMax) == Some(7);
    ParseDecimalIgnoresPlusAndZeros("7", IntMin, IntMax);
    assert "0" + "7" == "07";
    ParseDecimalIgnoresPlusAndZeros("07", IntMin, IntMax);
    assert "0" + "07" == "007";
    assert ParseDecimal("007", IntMin, IntMax) == Some(7);
  }

  // ---------------------------------------------------------------------
  // One cell into one field
  // ---------------------------------------------------------------------

  /** A text cell reading `NULL` in any case stands for null. */
  predicate IsNullText(s: string) {
    UpperCase(s) == "NULL"
  }

  /** The cell is written into a field: it is text other than `NULL`, and
      its column is in the column map. */
  predicate Writes(cmap: ColumnMap, name: string, v: Value) {
    v.Str? && !IsNullText(v.s) && Lookup(cmap, name).Some?
  }

  /** The cell raises an exception that escapes `parseResultObject`: a
      non-null cell that is not text fails the cast to `String`, and a
      column absent from the column map gives a null `Field`. */
  predicate CellThrows(cmap: ColumnMap, name: string, v: Value) {
    v != Null && (!v.Str? || (!IsNullText(v.s) && Lookup(cmap, name).None?))
  }

  /** The converted value can be set into the field. */
  predicate Converts(kind: Kind, v: Value) {
    ParseValue(kind, v).Returned? && Assignable(kind, ParseValue(kind, v).value)
  }

  /** The cell is skipped (null or `NULL`) or written successfully. */
  predicate CellAccepted(cmap: ColumnMap, name: string, v: Value) {
    v == Null || (v.Str? && (IsNullText(v.s) || (Lookup(cmap, name).Some? && Converts(Lookup(cmap, name).value.kind, v))))
  }

  /** The value a written cell gives its field. */
  function Converted(cmap: ColumnMap, name: string, v: Value): Value
    requires Writes(cmap, name, v) && Converts(Lookup(cmap, name).value.kind, v)
  {
    ParseValue(Lookup(cmap, name).value.kind, v).value
  }

  /** One iteration of the loop in `parseResultObject`: `Returned(None)`
      when conversion or `Field.set` fails (the method then returns null),
      otherwise the object with the cell written into its field. */
  function AssignCell(cmap: ColumnMap, name: string, v: Value, obj: Instance): (r: Outcome<Option<Instance>>)
    ensures r.Threw? <==> CellThrows(cmap, name, v)
    ensures r.Returned? && r.value.Some? <==> CellAccepted(cmap, name, v)
    ensures r.Returned? && r.value.Some? && !Writes(cmap, name, v) ==> r.value.value == obj
    ensures r.Returned? && r.value.Some? && Writes(cmap, name, v) ==>
      r.value.value == obj[Lookup(cmap, name).value.name := Converted(cmap, name, v)]
  {
    if v == Null then Returned(Some(obj))
    else if !v.Str? then Threw(ClassCast)
    else if IsNullText(v.s) then Returned(Some(obj))
    else match Lookup(cmap, name)
      case None => Threw(NullPointer)
      case Some(f) =>
        match ParseValue(f.kind, v)
        case Threw(_) => Returned(None)
        case Returned(pv) =>
          if Assignable(f.kind, pv) then Returned(Some(obj[f.name := pv])) else Returned(None)
  }

  // ---------------------------------------------------------------------
  // One row into one object
  // ---------------------------------------------------------------------

  /** The first `i` cells exist and are all accepted. */
  predicate AcceptedUpTo(cmap: ColumnMap, names: seq<string>, cells: seq<Value>, i: nat)
    requires i <= |names|
  {
    i <= |cells| && forall j :: 0 <= j < i ==> CellAccepted(cmap, names[j], cells[j])
  }

  /** Cell `i` writes into the field called `k`. */
  predicate WritesField(cmap: ColumnMap, names: seq<string>, cells: seq<Value>, i: nat, k: string)
    requires i < |names|
  {
    i < |cells| && Writes(cmap, names[i], cells[i]) && Lookup(cmap, names[i]).value.name == k
  }

  /** The loop of `parseResultObject` after its first `n` iterations,
      starting from the freshly created object `init`. The first cell that
      is not accepted decides the outcome: a missing cell (the row is
      shorter than the column names) or a throwing cell raises, any other
      rejected cell makes the result null. */
  function FillPrefix(cmap: ColumnMap, names: seq<string>, cells: seq<Value>, n: nat, init: Instance)
    : (r: Outcome<Option<Instance>>)
    requires n <= |names|
    ensures r.Returned? && r.value.Some? <==> AcceptedUpTo(cmap, names, cells, n)
    ensures r.Threw? <==> exists i :: (0 <= i < n && AcceptedUpTo(cmap, names, cells, i) &&
      (i >= |cells| || CellThrows(cmap, names[i], cells[i])))
  {
    if n == 0 then Returned(Some(init))
    else
      var prev :- FillPrefix(cmap, names, cells, n - 1, init);
      match prev
      case None => Returned(None)
      case Some(obj) =>
        if n - 1 >= |cells| then Threw(IndexOutOfBounds)
        else AssignCell(cmap, names[n - 1], cells[n - 1], obj)
  }

  /** The object after a successful row prefix. */
  function Filled(cmap: ColumnMap, names: seq<string>, cells: seq<Value>, n: nat, init: Instance): Instance
    requires n <= |names| && AcceptedUpTo(cmap, names, cells, n)
  {
    FillPrefix(cmap, names, cells, n, init).value.value
  }

  /** One more accepted cell either leaves the object as it was or writes
      its converted value into its field. */
  lemma FillStep(cmap: ColumnMap, names: seq<string>, cells: seq<Value>, n: nat, init: Instance)
    requires 0 < n <= |names| && AcceptedUpTo(cmap, names, cells, n)
    ensures AcceptedUpTo(cmap, names, cells, n - 1)
    ensures Writes(cmap, names[n - 1], cells[n - 1]) ==>
      Filled(cmap, names, cells, n, init) ==
      Filled(cmap, names, cells, n - 1, init)[Lookup(cmap, names[n - 1]).value.name := Converted(cmap, names[n - 1], cells[n - 1])]
    ensures !Writes(cmap, names[n - 1], cells[n - 1]) ==>
      Filled(cmap, names, cells, n, init) == Filled(cmap, names, cells, n - 1, init)
  {
    assert CellAccepted(cmap, names[n - 1], cells[n - 1]);
  }

  /** A successful row adds to the object exactly the fields its cells
      write. */
  lemma {:induction false} FilledKeys(cmap: ColumnMap, names: seq<string>, cells: seq<Value>, n: nat, init: Instance)
    requires n <= |names| && AcceptedUpTo(cmap, names, cells, n)
    ensures forall k :: k in Filled(cmap, names, cells, n, init) <==>
      k in init || exists i :: 0 <= i < n && WritesField(cmap, names, cells, i, k)
  {
    if n > 0 {
      FillStep(cmap, names, cells, n, init);
      FilledKeys(cmap, names, cells, n - 1, init);
      if Writes(cmap, names[n - 1], cells[n - 1]) {
        assert WritesField(cmap, names, cells, n - 1, Lookup(cmap, names[n - 1]).value.name);
      }
    }
  }

  /** Fields no cell of a successful row writes keep their initial values. */
  lemma {:induction false} FilledUntouched(cmap: ColumnMap, names: seq<string>, cells: seq<Value>, n: nat, init: Instance)
    requires n <= |names| && AcceptedUpTo(cmap, names, cells, n)
    ensures forall k :: (forall i :: 0 <= i < n ==> !WritesField(cmap, names, cells, i, k)) ==>
      FieldValue(Filled(cmap, names, cells, n, init), k) == FieldValue(init, k)
  {
    if n > 0 {
      FillStep(cmap, names, cells, n, init);
      FilledUntouched(cmap, names, cells, n - 1, init);
      forall k | forall i :: 0 <= i < n ==> !WritesField(cmap, names, cells, i, k)
        ensures FieldValue(Filled(cmap, names, cells, n, init), k) == FieldValue(init, k)
      {
        assert !WritesField(cmap, names, cells, n - 1, k);
      }
    }
  }

  /** A field written by a successful row holds the value converted from
      the last cell that writes it. */
  lemma {:induction false} FilledLastWrite(cmap: ColumnMap, names: seq<string>, cells: seq<Value>, n: nat, init: Instance, i: nat)
    requires n <= |names| && AcceptedUpTo(cmap, names, cells, n)
    requires i < n && Writes(cmap, names[i], cells[i])
    requires forall j :: i < j < n ==> !WritesField(cmap, names, cells, j, Lookup(cmap, names[i]).value.name)
    ensures FieldValue(Filled(cmap, names, cells, n, init), Lookup(cmap, names[i]).value.name) ==
      Converted(cmap, names[i], cells[i])
  {
    FillStep(cmap, names, cells, n, init);
    if i < n - 1 {
      FilledLastWrite(cmap, names, cells, n - 1, init, i);
      assert !WritesField(cmap, names, cells, n - 1, Lookup(cmap, names[i]).value.name);
    }
  }

  /** `parseResultObject(cls, columnFieldMap, columnNames, columnValues)`:
      a new instance filled cell by cell; null when the class cannot be
      instantiated or a cell cannot be converted or set. */
  function ParseResultObject(cls: ClassDesc, cmap: ColumnMap, names: seq<string>, cells: seq<Value>)
    : (r: Outcome<Option<Instance>>)
    ensures cls.newInstance.None? ==> r == Returned(None)
    ensures cls.newInstance.Some? ==>
      (r.Returned? && r.value.Some? <==> AcceptedUpTo(cmap, names, cells, |names|))
    ensures cls.newInstance.Some? ==>
      (r.Threw? <==> exists i :: (0 <= i < |names| && AcceptedUpTo(cmap, names, cells, i) &&
        (i >= |cells| || CellThrows(cmap, names[i], cells[i]))))
    ensures r.Threw? ==> exists i :: (0 <= i < |names| && AcceptedUpTo(cmap, names, cells, i) &&
      (i >= |cells| || CellThrows(cmap, names[i], cells[i])))
  {
    match cls.newInstance
    case None => Returned(None)
    case Some(init) => FillPrefix(cmap, names, cells, |names|, init)
  }

  // ---------------------------------------------------------------------
  // Text lines into lists of objects
  // ---------------------------------------------------------------------

  /** The cells of one line. */
  function LineCells(line: string, sep: char): (r: seq<Value>)
    ensures |r| == |JavaSplit(line, sep)|
    ensures forall i :: 0 <= i < |r| ==> r[i] == Str(JavaSplit(line, sep)[i])
  {
    var parts := JavaSplit(line, sep);
    seq(|parts|, i requires 0 <= i < |parts| => Str(parts[i]))
  }

  /** The line has as many cells as there are column names. */
  predicate LineFits(names: seq<string>, line: string, sep: char) {
    |JavaSplit(line, sep)| == |names|
  }

  /** The line fits and parses into an object without an exception. */
  predicate LineParses(cls: ClassDesc, cmap: ColumnMap, names: seq<string>, line: string, sep: char) {
    LineFits(names, line, sep) && ParseResultObject(cls, cmap, names, LineCells(line, sep)).Returned?
  }

  /** Every one of the lines fits and parses without an exception. */
  predicate AllLinesParse(cls: ClassDesc, cmap: ColumnMap, names: seq<string>, lines: seq<string>, sep: char) {
    forall i :: 0 <= i < |lines| ==> LineParses(cls, cmap, names, lines[i], sep)
  }

  /** The read loop of the four-argument `parseResultList`: each line is
      split and parsed into an object, in order. The first line that does
      not fit or does not parse decides: a line whose cell count differs
      from the number of column names makes the whole result null, even
      after earlier lines were parsed, and a fitting line whose parse
      throws makes the whole call throw that exception. */
  function ParseLines(cls: ClassDesc, cmap: ColumnMap, names: seq<string>, lines: seq<string>, sep: char)
    : (r: Outcome<Option<seq<Option<Instance>>>>)
    ensures r.Returned? && r.value.Some? ==>
      |r.value.value| == |lines| &&
      forall i :: 0 <= i < |lines| ==> (LineFits(names, lines[i], sep) &&
        ParseResultObject(cls, cmap, names, LineCells(lines[i], sep)) == Returned(r.value.value[i]))
    ensures r == Returned(None) <==> exists i :: (0 <= i < |lines| && !LineFits(names, lines[i], sep) &&
      AllLinesParse(cls, cmap, names, lines[..i], sep))
    ensures r.Threw? ==> exists i :: (0 <= i < |lines| && LineFits(names, lines[i], sep) &&
      ParseResultObject(cls, cmap, names, LineCells(lines[i], sep)) == Threw(r.error) &&
      AllLinesParse(cls, cmap, names, lines[..i], sep))
    ensures AllLinesParse(cls, cmap, names, lines, sep) ==> r.Returned? && r.value.Some?
  {
    var fits := seq(|lines|, i requires 0 <= i < |lines| => LineFits(names, lines[i], sep));
    var outs := seq(|lines|, i requires 0 <= i < |lines| => ParseResultObject(cls, cmap, names, LineCells(lines[i], sep)));
    CollectLinesContent(cls, cmap, names, lines, sep, fits, outs);
    CollectLinesNull(cls, cmap, names, lines, sep, fits, outs);
    CollectLinesThrow(cls, cmap, names, lines, sep, fits, outs);
    Collect(fits, outs)
  }

  /** `Collect`'s contract over the per-line checks, restated in terms of
      the lines themselves; `LinesBefore` relates the prefixes, and the
      other lemmas carry one clause each. */
  lemma LinesBefore(cls: ClassDesc, cmap: ColumnMap, names: seq<string>, lines: seq<string>, sep: char,
                     fits: seq<bool>, outs: seq<Outcome<Option<Instance>>>)
    requires |fits| == |lines| && |outs| == |lines|
    requires forall i :: 0 <= i < |lines| ==> fits[i] == LineFits(names, lines[i], sep)
    requires forall i :: 0 <= i < |lines| ==> outs[i] == ParseResultObject(cls, cmap, names, LineCells(lines[i], sep))
    ensures forall i :: 0 <= i <= |lines| ==>
      (GoodBefore(fits, outs, i) <==> AllLinesParse(cls, cmap, names, lines[..i], sep))
  {
    forall i | 0 <= i <= |lines|
      ensures GoodBefore(fits, outs, i) <==> AllLinesParse(cls, cmap, names, lines[..i], sep)
    {
      assert forall j :: 0 <= j < i ==> lines[..i][j] == lines[j];
    }
  }

  lemma CollectLinesContent(cls: ClassDesc, cmap: ColumnMap, names: seq<string>, lines: seq<string>, sep: char,
                     fits: seq<bool>, outs: seq<Outcome<Option<Instance>>>)
    requires |fits| == |lines| && |outs| == |lines|
    requires forall i :: 0 <= i < |lines| ==> fits[i] == LineFits(names, lines[i], sep)
    requires forall i :: 0 <= i < |lines| ==> outs[i] == ParseResultObject(cls, cmap, names, LineCells(lines[i], sep))
    ensures var r := Collect(fits, outs);
      r.Returned? && r.value.Some? ==>
        |r.value.value| == |lines| &&
        forall i :: 0 <= i < |lines| ==> (LineFits(names, lines[i], sep) &&
          ParseResultObject(cls, cmap, names, LineCells(lines[i], sep)) == Returned(r.value.value[i]))
    ensures AllLinesParse(cls, cmap, names, lines, sep) ==> Collect(fits, outs).Returned? && Collect(fits, outs).value.Some?
  {
    LinesBefore(cls, cmap, names, lines, sep, fits, outs);
    assert lines[..|lines|] == lines;
  }

  lemma CollectLinesNull(cls: ClassDesc, cmap: ColumnMap, names: seq<string>, lines: seq<string>, sep: char,
                     fits: seq<bool>, outs: seq<Outcome<Option<Instance>>>)
    requires |fits| == |lines| && |outs| == |lines|
    requires forall i :: 0 <= i < |lines| ==> fits[i] == LineFits(names, lines[i], sep)
    requires forall i :: 0 <= i < |lines| ==> outs[i] == ParseResultObject(cls, cmap, names, LineCells(lines[i], sep))
    ensures Collect(fits, outs) == Returned(None) <==>
      exists i :: (0 <= i < |lines| && !LineFits(names, lines[i], sep) &&
        AllLinesParse(cls, cmap, names, lines[..i], sep))
  {
    LinesBefore(cls, cmap, names, lines, sep, fits, outs);
    if Collect(fits, outs) == Returned(None) {
      var i :| 0 <= i < |fits| && !fits[i] && GoodBefore(fits, outs, i);
      assert !LineFits(names, lines[i], sep) && AllLinesParse(cls, cmap, names, lines[..i], sep);
    }
    if exists i :: (0 <= i < |lines| && !LineFits(names, lines[i], sep) && AllLinesParse(cls, cmap, names, lines[..i], sep)) {
      var i :| 0 <= i < |lines| && !LineFits(names, lines[i], sep) && AllLinesParse(cls, cmap, names, lines[..i], sep);
      assert !fits[i] && GoodBefore(fits, outs, i);
    }
  }

  lemma CollectLinesThrow(cls: ClassDesc, cmap: ColumnMap, names: seq<string>, lines: seq<string>, sep: char,
                     fits: seq<bool>, outs: seq<Outcome<Option<Instance>>>)
    requires |fits| == |lines| && |outs| == |lines|
    requires forall i :: 0 <= i < |lines| ==> fits[i] == LineFits(names, lines[i], sep)
    requires forall i :: 0 <= i < |lines| ==> outs[i] == ParseResultObject(cls, cmap, names, LineCells(lines[i], sep))
    ensures var r := Collect(fits, outs);
      r.Threw? ==> exists i :: (0 <= i < |lines| && LineFits(names, lines[i], sep) &&
        ParseResultObject(cls, cmap, names, LineCells(lines[i], sep)) == Threw(r.error) &&
        AllLinesParse(cls, cmap, names, lines[..i], sep))
  {
    var r := Collect(fits, outs);
    if r.Threw? {
      LinesBefore(cls, cmap, names, lines, sep, fits, outs);
      var i :| 0 <= i < |fits| && fits[i] && outs[i] == Threw(r.error) && GoodBefore(fits, outs, i);
      assert LineFits(names, lines[i], sep) && AllLinesParse(cls, cmap, names, lines[..i], sep);
    }
  }

  /** Every line before position `i` fits and parses without an exception. */
  predicate GoodBefore(fits: seq<bool>, outs: seq<Outcome<Option<Instance>>>, i: int)
    requires |fits| == |outs| && 0 <= i <= |fits|
  {
    forall j :: 0 <= j < i ==> fits[j] && outs[j].Returned?
  }

  /** The position of the first line that does not fit or does not parse,
      or the number of lines when there is none. */
  function FirstBad(fits: seq<bool>, outs: seq<Outcome<Option<Instance>>>): (k: nat)
    requires |fits| == |outs|
    ensures k <= |fits| && GoodBefore(fits, outs, k)
    ensures k < |fits| ==> !(fits[k] && outs[k].Returned?)
  {
    if |fits| == 0 || !(fits[0] && outs[0].Returned?) then 0
    else 1 + FirstBad(fits[1..], outs[1..])
  }

  /** Only one position can be the first bad one. */
  lemma FirstBadUnique(fits: seq<bool>, outs: seq<Outcome<Option<Instance>>>)
    requires |fits| == |outs|
    ensures forall i :: 0 <= i < |fits| && !(fits[i] && outs[i].Returned?) && GoodBefore(fits, outs, i) ==>
      i == FirstBad(fits, outs)
  {
  }

  /** The control flow of that loop, given for each line whether its cell
      count fits (`fits`) and what parsing it gives (`outs`): the lines
      are taken in order and the first one that does not fit or does not
      parse decides the result; a misfit makes it null and an exception
      escapes; with no such line the objects are collected. Parsing has no
      side effect, so computing every outcome up front changes nothing. */
  function Collect(fits: seq<bool>, outs: seq<Outcome<Option<Instance>>>): (r: Outcome<Option<seq<Option<Instance>>>>)
    requires |fits| == |outs|
    ensures r.Returned? && r.value.Some? ==>
      |r.value.value| == |outs| && forall i :: 0 <= i < |outs| ==> fits[i] && outs[i] == Returned(r.value.value[i])
    ensures var k := FirstBad(fits, outs);
      k < |fits| ==> (if fits[k] then r == Threw(outs[k].error) else r == Returned(None))
    ensures r == Returned(None) <==> exists i :: 0 <= i < |fits| && !fits[i] && GoodBefore(fits, outs, i)
    ensures r.Threw? ==> exists i :: 0 <= i < |fits| && fits[i] && outs[i] == Threw(r.error) && GoodBefore(fits, outs, i)
    ensures GoodBefore(fits, outs, |fits|) ==> r.Returned? && r.value.Some?
  {
    FirstBadUnique(fits, outs);
    if |outs| == 0 then Returned(Some([]))
    else if !fits[0] then Returned(None)
    else
      var o :- outs[0];
      var rest :- Collect(fits[1..], outs[1..]);
      match rest
      case None => Returned(None)
      case Some(os) => Returned(Some([o] + os))
  }

  /** The separator of the four-argument `parseResultList`: the given one,
      or the default when `splitterStr` is null or empty. */
  function Separator(splitter: Option<char>): char {
    if splitter.Some? then splitter.value else ColumnSeparator
  }

  /** `parseResultList(clz, columnNames, inputStream, splitterStr)` with the
      stream's lines given; `splitter` is the separator character, `None`
      when `splitterStr` is null or empty (the default separator). */
  function ParseResultList(cls: ClassDesc, names: seq<string>, lines: seq<string>, splitter: Option<char>)
    : (r: Outcome<Option<seq<Option<Instance>>>>)
    ensures r.Returned? && r.value.Some? ==> |r.value.value| == |lines|
    ensures |lines| == 0 ==> r == Returned(Some([]))
    ensures r.Returned? && r.value.Some? ==> forall i :: 0 <= i < |lines| ==>
      |JavaSplit(lines[i], Separator(splitter))| == |names|
    ensures var cmap := LoadColumnMap(cls); var sep := Separator(splitter);
      r.Returned? && r.value.Some? ==> forall i :: 0 <= i < |lines| ==>
        ParseResultObject(cls, cmap, names, LineCells(lines[i], sep)) == Returned(r.value.value[i])
    ensures var cmap := LoadColumnMap(cls); var sep := Separator(splitter);
      r == Returned(None) <==> exists i :: (0 <= i < |lines| && !LineFits(names, lines[i], sep) &&
        AllLinesParse(cls, cmap, names, lines[..i], sep))
    ensures var cmap := LoadColumnMap(cls); var sep := Separator(splitter);
      r.Threw? ==> exists i :: (0 <= i < |lines| && LineFits(names, lines[i], sep) &&
        ParseResultObject(cls, cmap, names, LineCells(lines[i], sep)) == Threw(r.error) &&
        AllLinesParse(cls, cmap, names, lines[..i], sep))
    ensures AllLinesParse(cls, LoadColumnMap(cls), names, lines, Separator(splitter)) ==> r.Returned? && r.value.Some?
  {
    ParseLines(cls, LoadColumnMap(cls), names, lines, Separator(splitter))
  }

  /** `parseResultList(clz, inputStream)`: the column names are the column
      map's keys and the separator is the default one. */
  function ParseResultListDefault(cls: ClassDesc, lines: seq<string>)
    : (r: Outcome<Option<seq<Option<Instance>>>>)
    ensures r.Returned? && r.value.Some? ==> |r.value.value| == |lines|
    ensures r.Returned? && r.value.Some? ==>
      forall i :: 0 <= i < |lines| ==> |JavaSplit(lines[i], ColumnSeparator)| == |LoadColumnMap(cls)|
    ensures var cmap := LoadColumnMap(cls); var names := Keys(cmap);
      r.Returned? && r.value.Some? ==> forall i :: 0 <= i < |lines| ==>
        ParseResultObject(cls, cmap, names, LineCells(lines[i], ColumnSeparator)) == Returned(r.value.value[i])
    ensures var cmap := LoadColumnMap(cls); var names := Keys(cmap);
      r == Returned(None) <==> exists i :: (0 <= i < |lines| && !LineFits(names, lines[i], ColumnSeparator) &&
        AllLinesParse(cls, cmap, names, lines[..i], ColumnSeparator))
    ensures var cmap := LoadColumnMap(cls); var names := Keys(cmap);
      r.Threw? ==> exists i :: (0 <= i < |lines| && LineFits(names, lines[i], ColumnSeparator) &&
        ParseResultObject(cls, cmap, names, LineCells(lines[i], ColumnSeparator)) == Threw(r.error) &&
        AllLinesParse(cls, cmap, names, lines[..i], ColumnSeparator))
    ensures AllLinesParse(cls, LoadColumnMap(cls), Keys(LoadColumnMap(cls)), lines, ColumnSeparator) ==>
      r.Returned? && r.value.Some?
  {
    ParseResultList(cls, Keys(LoadColumnMap(cls)), lines, None)
  }

  /** A row parsed into an object with the class's column map, its keys
      taken as the column names. */
  function RowObject(cls: ClassDesc, row: seq<Value>): Outcome<Option<Instance>> {
    ParseResultObject(cls, LoadColumnMap(cls), Keys(LoadColumnMap(cls)), row)
  }

  /** Row `i` is the first row whose parse throws, and it throws `e`. */
  predicate FirstRowThrow(cls: ClassDesc, rows: seq<seq<Value>>, i: int, e: Error) {
    0 <= i < |rows| && RowObject(cls, rows[i]) == Threw(e) &&
    forall j :: 0 <= j < i ==> RowObject(cls, rows[j]).Returned?
  }

  lemma FirstRowThrowShift(cls: ClassDesc, rows: seq<seq<Value>>, rest: Outcome<seq<Option<Instance>>>)
    requires |rows| > 0 && RowObject(cls, rows[0]).Returned?
    requires rest.Threw? ==> exists i :: FirstRowThrow(cls, rows[1..], i, rest.error)
    ensures rest.Threw? ==> exists i :: FirstRowThrow(cls, rows, i, rest.error)
  {
    if rest.Threw? {
      var i :| FirstRowThrow(cls, rows[1..], i, rest.error);
      assert rows[i + 1] == rows[1..][i];
      assert FirstRowThrow(cls, rows, i + 1, rest.error);
    }
  }

  /** `parseResultList(cls, rows)`: every row becomes an object, with no
      check of the row length against the column names; the first row
      whose parse throws makes the whole call throw. */
  function ParseRows(cls: ClassDesc, rows: seq<seq<Value>>): (r: Outcome<seq<Option<Instance>>>)
    ensures r.Returned? ==> (|r.value| == |rows| &&
      forall i :: 0 <= i < |rows| ==>
        ParseResultObject(cls, LoadColumnMap(cls), Keys(LoadColumnMap(cls)), rows[i]) == Returned(r.value[i]))
    ensures r.Returned? <==> forall i :: 0 <= i < |rows| ==>
      ParseResultObject(cls, LoadColumnMap(cls), Keys(LoadColumnMap(cls)), rows[i]).Returned?
    ensures r.Threw? ==> exists i :: FirstRowThrow(cls, rows, i, r.error)
  {
    if |rows| == 0 then Returned([])
    else
      match RowObject(cls, rows[0])
      case Threw(e) =>
        assert FirstRowThrow(cls, rows, 0, e);
        Threw(e)
      case Returned(o) =>
        var rest := ParseRows(cls, rows[1..]);
        FirstRowThrowShift(cls, rows, rest);
        var os :- rest;
        Returned([o] + os)
  }

  /** `parseValueList(clz, inputStream)`: every line converted, a
      conversion exception propagating. */
  function ParseValueList(kind: Kind, lines: seq<string>): (r: Outcome<seq<Value>>)
    ensures r.Returned? ==> (|r.value| == |lines| &&
      forall i :: 0 <= i < |lines| ==> ParseValue(kind, Str(lines[i])) == Returned(r.value[i]))
    ensures r.Returned? <==> forall i :: 0 <= i < |lines| ==> ParseValue(kind, Str(lines[i])).Returned?
  {
    if |lines| == 0 then Returned([])
    else
      var v :- ParseValue(kind, Str(lines[0]));
      var rest :- ParseValueList(kind, lines[1..]);
      Returned([v] + rest)
  }

  /** `parseValue(clz, inputStream)`: the first line converted, or null
      when there is no line or it is blank. */
  function ParseFirstValue(kind: Kind, lines: seq<string>): (r: Outcome<Value>)
    ensures |lines| == 0 ==> r == Returned(Null)
    ensures |lines| > 0 && IsBlank(lines[0]) ==> r == Returned(Null)
    ensures |lines| > 0 && !IsBlank(lines[0]) ==> r == ParseValue(kind, Str(lines[0]))
    ensures r.Returned? && r.value != Null ==> Fits(kind, r.value)
  {
    if |lines| == 0 || IsBlank(lines[0]) then Returned(Null)
    else ParseValue(kind, Str(lines[0]))
  }

  // ---------------------------------------------------------------------
  // Properties
  // ---------------------------------------------------------------------

  /** The single-value reader looks at the first line only: the lines
      after it, even ones that would not convert, change nothing. */
  lemma FirstValueReadsFirstLineOnly(kind: Kind, lines: seq<string>, more: seq<string>)
    requires |lines| > 0
    ensures ParseFirstValue(kind, lines + more) == ParseFirstValue(kind, lines[..1])
  {
    assert (lines + more)[0] == lines[..1][0];
  }

  /** A first line that does not convert makes the reader throw, whatever
      follows; an unparsable number is a `NumberFormatException`. */
  lemma FirstValueThrowsOnBadFirstLine(kind: Kind, lines: seq<string>)
    requires |lines| > 0 && ParseValue(kind, Str(lines[0])).Threw?
    ensures ParseFirstValue(kind, lines) == ParseValue(kind, Str(lines[0]))
    ensures kind == IntegerType && ParseDecimal(lines[0], IntMin, IntMax).None? ==>
      ParseFirstValue(kind, lines) == Threw(NumberFormat)
  {
  }

  /** An empty cell for a `String` field sets the field to the empty
      string; for an `Integer`, `Long` or `Boolean` field it sets null; for
      a primitive field it makes the whole object null. */
  lemma EmptyCellByFieldType(cmap: ColumnMap, name: string, obj: Instance, f: Field)
    requires Lookup(cmap, name) == Some(f)
    ensures f.kind == StringType ==> AssignCell(cmap, name, Str(""), obj) == Returned(Some(obj[f.name := Str("")]))
    ensures f.kind in {IntegerType, LongType, BooleanType} ==>
      AssignCell(cmap, name, Str(""), obj) == Returned(Some(obj[f.name := Null]))
    ensures f.kind.PrimitiveType? ==> AssignCell(cmap, name, Str(""), obj) == Returned(None)
  {
    assert !IsNullText("");
  }

  /** `NULL`, `null` or `Null` in a cell leaves the field untouched, even
      for a column that is not in the column map. */
  lemma NullTextSkipped(cmap: ColumnMap, name: string, obj: Instance)
    ensures AssignCell(cmap, name, Str("null"), obj) == Returned(Some(obj))
    ensures AssignCell(cmap, name, Str("Null"), obj) == Returned(Some(obj))
  {
    assert UpperCase("null") == "NULL";
    assert UpperCase("Null") == "NULL";
  }

  /** Reading one value from the first line agrees with the first element
      of the value list, except that a blank first line gives null even for
      a `String` target, where the value list keeps the text. */
  lemma FirstValueAgreesWithList(kind: Kind, lines: seq<string>)
    requires |lines| > 0 && ParseValueList(kind, lines).Returned?
    ensures kind == StringType && IsBlank(lines[0]) ==>
      ParseFirstValue(kind, lines) == Returned(Null) && ParseValueList(kind, lines).value[0] == Str(lines[0])
    ensures !(kind == StringType && IsBlank(lines[0])) ==>
      ParseFirstValue(kind, lines) == Returned(ParseValueList(kind, lines).value[0])
  {
  }

  /** A row whose last cell is empty loses that cell when split, so its
      cell count no longer matches and the whole list is null. */
  lemma TrailingEmptyCellRejectsList(cls: ClassDesc, names: seq<string>, texts: seq<string>, sep: char)
    requires |texts| == |names| >= 2
    requires forall k :: 0 <= k < |texts| ==> sep !in texts[k]
    requires texts[|texts| - 1] == ""
    ensures ParseResultList(cls, names, [Join(texts, [sep])], Some(sep)) == Returned(None)
  {
    JavaSplitOfJoin(texts, sep);
    assert !LineFits(names, [Join(texts, [sep])][0], sep);
  }

  /** The text of a row of values: each value's `String.valueOf`, joined
      with the separator. */
  function RowText(vals: seq<Value>, sep: char): string {
    Join(seq(|vals|, i requires 0 <= i < |vals| => ToText(vals[i])), [sep])
  }

  /** The row can be written as text and read back: each value fits its
      column's field type, is of a scalar type, does not read `NULL` and
      does not contain the separator, and the last one is not empty. */
  predicate RowWritable(cmap: ColumnMap, vals: seq<Value>, sep: char) {
    |vals| == |cmap| > 0 &&
    (forall i :: 0 <= i < |cmap| ==>
      Scalar(cmap[i].1.kind) && Fits(cmap[i].1.kind, vals[i]) &&
      !IsNullText(ToText(vals[i])) && sep !in ToText(vals[i])) &&
    (|vals| == 1 || ToText(vals[|vals| - 1]) != "")
  }

  lemma LookupEntry(cmap: ColumnMap, i: int)
    requires UniqueKeys(cmap) && 0 <= i < |cmap|
    ensures Lookup(cmap, cmap[i].0) == Some(cmap[i].1)
  {
    IndexOfIs(cmap, cmap[i].0, i);
  }

  /** The text of one value, in the column it was written for, is
      accepted and converts back to the value. */
  lemma CellConverts(cmap: ColumnMap, i: int, v: Value)
    requires UniqueKeys(cmap) && 0 <= i < |cmap|
    requires Scalar(cmap[i].1.kind) && Fits(cmap[i].1.kind, v) && !IsNullText(ToText(v))
    ensures Lookup(cmap, cmap[i].0) == Some(cmap[i].1)
    ensures Writes(cmap, cmap[i].0, Str(ToText(v))) && CellAccepted(cmap, cmap[i].0, Str(ToText(v)))
    ensures Converted(cmap, cmap[i].0, Str(ToText(v))) == v
  {
    LookupEntry(cmap, i);
    ParseValueRoundTrip(cmap[i].1.kind, v);
  }

  /** The text of a row splits back into the values' texts when none
      holds the separator and the last is not empty. */
  lemma SplitRowText(vals: seq<Value>, sep: char)
    requires |vals| > 0
    requires forall i :: 0 <= i < |vals| ==> sep !in ToText(vals[i])
    requires |vals| == 1 || ToText(vals[|vals| - 1]) != ""
    ensures JavaSplit(RowText(vals, sep), sep) == seq(|vals|, i requires 0 <= i < |vals| => ToText(vals[i]))
  {
    var texts := seq(|vals|, i requires 0 <= i < |vals| => ToText(vals[i]));
    JavaSplitOfJoin(texts, sep);
  }

  lemma RowSplits(cmap: ColumnMap, vals: seq<Value>, sep: char)
    requires RowWritable(cmap, vals, sep)
    ensures LineFits(Keys(cmap), RowText(vals, sep), sep)
    ensures forall i :: 0 <= i < |vals| ==> LineCells(RowText(vals, sep), sep)[i] == Str(ToText(vals[i]))
  {
    assert forall i :: 0 <= i < |vals| ==> sep !in ToText(vals[i]);
    SplitRowText(vals, sep);
  }

  /** Every cell of a written row is accepted and converts back to its
      value. */
  lemma RowCellsConvert(cmap: ColumnMap, vals: seq<Value>, sep: char)
    requires UniqueKeys(cmap) && RowWritable(cmap, vals, sep)
    ensures var names := Keys(cmap); var cells := LineCells(RowText(vals, sep), sep);
      LineFits(names, RowText(vals, sep), sep) && |cells| == |names| &&
      forall i :: 0 <= i < |names| ==>
        Lookup(cmap, names[i]) == Some(cmap[i].1) && Writes(cmap, names[i], cells[i]) &&
        CellAccepted(cmap, names[i], cells[i]) && Converted(cmap, names[i], cells[i]) == vals[i]
  {
    var names := Keys(cmap);
    RowSplits(cmap, vals, sep);
    var cells := LineCells(RowText(vals, sep), sep);
    forall i | 0 <= i < |names|
      ensures Lookup(cmap, names[i]) == Some(cmap[i].1) && Writes(cmap, names[i], cells[i])
      ensures CellAccepted(cmap, names[i], cells[i]) && Converted(cmap, names[i], cells[i]) == vals[i]
    {
      CellConverts(cmap, i, vals[i]);
    }
  }

  /** A first line with the wrong cell count makes the result null, even
      when a later line would throw. */
  lemma MisfitFirstLineGivesNull(cls: ClassDesc, cmap: ColumnMap, names: seq<string>, line: string,
                                 more: seq<string>, sep: char)
    requires !LineFits(names, line, sep)
    ensures ParseLines(cls, cmap, names, [line] + more, sep) == Returned(None)
  {
    var lines := [line] + more;
    assert lines[0] == line && lines[..0] == [];
    assert !LineFits(names, lines[0], sep) && AllLinesParse(cls, cmap, names, lines[..0], sep);
  }

  /** No non-empty prefix of lines parses when its first line does not. */
  lemma NoPrefixParses(cls: ClassDesc, cmap: ColumnMap, names: seq<string>, lines: seq<string>, sep: char)
    requires |lines| > 0 && !LineParses(cls, cmap, names, lines[0], sep)
    ensures forall i :: 0 < i <= |lines| ==> !AllLinesParse(cls, cmap, names, lines[..i], sep)
  {
    forall i | 0 < i <= |lines|
      ensures !AllLinesParse(cls, cmap, names, lines[..i], sep)
    {
      assert lines[..i][0] == lines[0];
    }
  }

  /** A first line that fits but whose parse throws makes the whole call
      throw that exception, even when a later line has the wrong cell
      count. */
  lemma ThrowingFirstLineThrows(cls: ClassDesc, cmap: ColumnMap, names: seq<string>, line: string,
                                more: seq<string>, sep: char)
    requires LineFits(names, line, sep)
    requires ParseResultObject(cls, cmap, names, LineCells(line, sep)).Threw?
    ensures ParseLines(cls, cmap, names, [line] + more, sep) ==
      Threw(ParseResultObject(cls, cmap, names, LineCells(line, sep)).error)
  {
    var lines := [line] + more;
    assert lines[0] == line;
    NoPrefixParses(cls, cmap, names, lines, sep);
    var r := ParseLines(cls, cmap, names, lines, sep);
    assert r != Returned(None);
  }

  /** A one-line input whose line fits and parses gives a one-element list. */
  lemma SingleLine(cls: ClassDesc, cmap: ColumnMap, names: seq<string>, line: string, sep: char)
    requires LineFits(names, line, sep)
    requires ParseResultObject(cls, cmap, names, LineCells(line, sep)).Returned?
    ensures ParseLines(cls, cmap, names, [line], sep) ==
      Returned(Some([ParseResultObject(cls, cmap, names, LineCells(line, sep)).value]))
  {
    assert ParseLines(cls, cmap, names, [line][1..], sep) == Returned(Some([]));
    var o := ParseResultObject(cls, cmap, names, LineCells(line, sep)).value;
    assert [o] + [] == [o];
  }

  /** Round trip of a whole row: a line written from values for every
      column of the class, in column-map order, is read back into one
      object holding exactly those values in the mapped fields (which have
      distinct names, as Java fields of one class do). */
  lemma RowRoundTrip(cls: ClassDesc, vals: seq<Value>, sep: char)
    requires cls.newInstance.Some?
    requires RowWritable(LoadColumnMap(cls), vals, sep)
    requires var cmap := LoadColumnMap(cls);
      forall i, j :: 0 <= i < j < |cmap| ==> cmap[i].1.name != cmap[j].1.name
    ensures var r := ParseResultList(cls, Keys(LoadColumnMap(cls)), [RowText(vals, sep)], Some(sep));
      r.Returned? && r.value.Some? && |r.value.value| == 1 && r.value.value[0].Some? &&
      forall i :: 0 <= i < |vals| ==> FieldValue(r.value.value[0].value, LoadColumnMap(cls)[i].1.name) == vals[i]
  {
    var cmap := LoadColumnMap(cls);
    var names := Keys(cmap);
    var line := RowText(vals, sep);
    var cells := LineCells(line, sep);
    RowCellsConvert(cmap, vals, sep);
    assert AcceptedUpTo(cmap, names, cells, |names|);
    var init := cls.newInstance.value;
    var obj := Filled(cmap, names, cells, |names|, init);
    forall i | 0 <= i < |vals|
      ensures FieldValue(obj, cmap[i].1.name) == vals[i]
    {
      forall j | i < j < |names|
        ensures !WritesField(cmap, names, cells, j, cmap[i].1.name)
      {
      }
      FilledLastWrite(cmap, names, cells, |names|, init, i);
    }
    SingleLine(cls, cmap, names, line, sep);
  }
}

=== FILE: results.dfy ===
/** Failure-carrying values used throughout the model.

    Java code in this helper fails in two different ways, and the difference
    is observable by callers: some methods catch an exception and return
    `null`, others let the exception propagate. `Outcome` models the second
    kind (an exception that escapes the call), `Option` the first (a value
    that may be `null`).
 */
module Results {

  /** A possibly-null reference: `None` stands for Java's `null`. */
  datatype Option<+T> = None | Some(value: T)

  /** The exceptions that can escape an operation of the model. */
  datatype Error =
    | NullPointer        // dereferencing a missing annotation, map entry or lookup result
    | IndexOutOfBounds   // `List.get` beyond the end of a list
    | ClassCast          // a cast to `String` or `List` that does not hold
    | UnsupportedType    // the explicit "Unsupported type" runtime exceptions
    | NumberFormat       // `Integer.parseInt` / `Long.parseLong` rejecting the text

  /** Either the call returned a value, or an exception escaped it. */
  datatype Outcome<+T> = Returned(value: T) | Threw(error: Error) {

    predicate IsFailure() {
      Threw?
    }

    function PropagateFailure<U>(): Outcome<U>
      requires Threw?
    {
      Threw(error)
    }

    function Extract(): T
      requires Returned?
    {
      value
    }
  }
}

=== FILE: sqltext.dfy ===
/** `SqlUtils`, query side: the WHERE clause built from a filter object's
    fields, and the pieces `selectSQL` and `countSQL` hand to MyBatis'
    `SQL` builder (select list, table, WHERE text).
 */
module SqlText {
  import opened Results
  import opened Strings
  import opened Naming
  import opened Classes
  import opened Metadata

  const Comma: string := ","
  const BetweenOp: string := " BETWEEN "
  const AndOp: string := " AND "
  const EqualOp: string := " = "
  const InOp: string := " in "
  const Quote: string := "'"
  const Space: string := " "

  /** `'` + text + `'`, with no escaping of quotes inside the text. */
  function Quoted(v: Value): string {
    Quote + ToText(v) + Quote
  }

  /** One element of an `in (...)` list: quoted for `List<String>`, bare
      for `List<Integer>`. */
  function ElementText(element: Kind, v: Value): string {
    if element == StringType then Quoted(v) else ToText(v)
  }

  function ElementTexts(element: Kind, items: seq<Value>): seq<string> {
    seq(|items|, i requires 0 <= i < |items| => ElementText(element, items[i]))
  }

  /** The comma-separated elements of an `in (...)` list. */
  function InElements(element: Kind, items: seq<Value>): string
    requires element == StringType || element == IntegerType
  {
    Join(ElementTexts(element, items), Comma)
  }

  /** The predicate one non-ignored field with the non-null value `v`
      contributes to the WHERE clause, or the exception rendering it raises.
      A `List` field reads `rel()` from its `@SqlColumn`, so without the
      annotation it raises a `NullPointerException` whatever its relation;
      a `BETWEEN` list reads elements 0 and 1; any other list needs
      `String` or `Integer` elements. */
  function FieldPredicate(f: Field, v: Value): (r: Outcome<string>)
    ensures r.Returned? ==> ColumnKey(f) <= r.value
    ensures !f.kind.ListType? ==> r.Returned?
    ensures f.kind.ListType? && f.sqlColumn.None? ==> r == Threw(NullPointer)
    ensures f.kind.ListType? && f.sqlColumn.Some? && f.sqlColumn.value.rel == BETWEEN ==>
      (r.Returned? <==> v.ListVal? && |v.items| >= 2)
    ensures f.kind.ListType? && f.sqlColumn.Some? && f.sqlColumn.value.rel == EQ ==>
      (r.Returned? <==> v.ListVal? && f.kind.element in {StringType, IntegerType})
    ensures (f.kind.ListType? && f.sqlColumn.Some? && f.sqlColumn.value.rel == EQ &&
             !f.kind.element.ListType? && f.kind.element !in {StringType, IntegerType}) ==>
      r == Threw(UnsupportedType)
  {
    var col := ColumnKey(f);
    match f.kind
    case ListType(element) =>
      if f.sqlColumn.None? then Threw(NullPointer)
      else if f.sqlColumn.value.rel == BETWEEN then
        if !v.ListVal? then Threw(ClassCast)
        else if |v.items| < 2 then Threw(IndexOutOfBounds)
        else Returned(col + BetweenOp + ToText(v.items[0]) + AndOp + ToText(v.items[1]) + Space)
      else if element.ListType? then Threw(ClassCast)
      else if element != StringType && element != IntegerType then Threw(UnsupportedType)
      else if !v.ListVal? then Threw(ClassCast)
      else Returned(col + InOp + "(" + InElements(element, v.items) + ")")
    case StringType => Returned(col + EqualOp + Quoted(v))
    case _ => Returned(col + EqualOp + ToText(v))
  }

  /** A non-list field renders `column = 'text'` when it is a `String`
      field, the value's text inserted verbatim between the quotes, and
      `column = text` otherwise. */
  lemma ScalarFieldPredicate(f: Field, v: Value)
    requires !f.kind.ListType?
    ensures f.kind == StringType ==> FieldPredicate(f, v) == Returned(ColumnKey(f) + " = '" + ToText(v) + "'")
    ensures f.kind != StringType ==> FieldPredicate(f, v) == Returned(ColumnKey(f) + " = " + ToText(v))
  {
    var col := ColumnKey(f);
    assert col + EqualOp + Quoted(v) == col + " = '" + ToText(v) + "'";
  }

  /** A `BETWEEN` list renders `column BETWEEN e0 AND e1 ` from its first
      two elements and ignores the rest. */
  lemma BetweenReadsFirstTwo(f: Field, items: seq<Value>)
    requires f.kind.ListType? && f.sqlColumn.Some? && f.sqlColumn.value.rel == BETWEEN
    requires |items| >= 2
    ensures FieldPredicate(f, ListVal(items)) ==
      Returned(ColumnKey(f) + " BETWEEN " + ToText(items[0]) + " AND " + ToText(items[1]) + " ")
    ensures FieldPredicate(f, ListVal(items)) == FieldPredicate(f, ListVal(items[..2]))
  {
  }

  /** An `EQ` list renders `column in (...)`. When no element's text holds
      a comma, the text between the parentheses splits at `,` back into
      the elements, each quoted for `List<String>` and bare for
      `List<Integer>`. */
  lemma InListSplitsBack(f: Field, items: seq<Value>)
    requires f.kind == ListType(StringType) || f.kind == ListType(IntegerType)
    requires f.sqlColumn.Some? && f.sqlColumn.value.rel == EQ
    requires |items| >= 1
    requires forall i :: 0 <= i < |items| ==> ',' !in ToText(items[i])
    ensures FieldPredicate(f, ListVal(items)) ==
      Returned(ColumnKey(f) + " in (" + InElements(f.kind.element, items) + ")")
    ensures var parts := SplitOn(InElements(f.kind.element, items), ',');
      |parts| == |items| &&
      forall i :: 0 <= i < |items| ==>
        parts[i] == if f.kind == ListType(StringType) then "'" + ToText(items[i]) + "'" else ToText(items[i])
  {
    InElementsSplit(f.kind.element, items);
    var col := ColumnKey(f);
    var body := InElements(f.kind.element, items);
    assert col + InOp + "(" + body + ")" == col + " in (" + body + ")";
  }

  lemma InElementsSplit(element: Kind, items: seq<Value>)
    requires element == StringType || element == IntegerType
    requires |items| >= 1
    requires forall i :: 0 <= i < |items| ==> ',' !in ToText(items[i])
    ensures var parts := SplitOn(InElements(element, items), ',');
      |parts| == |items| &&
      forall i :: 0 <= i < |items| ==> parts[i] == ElementText(element, items[i])
  {
    var ts := ElementTexts(element, items);
    forall k | 0 <= k < |ts|
      ensures ',' !in ts[k]
    {
      assert ts[k] == ElementText(element, items[k]);
    }
    JoinSplitOn(ts, ',');
    assert Comma == [','];
  }

  /** A field takes part in the WHERE clause when it is not `@SqlIgnore`
      and its value is not null. Static fields are not excluded. */
  predicate Contributes(f: Field, o: Instance) {
    !f.sqlIgnore && FieldValue(o, f.name) != Null
  }

  /** The contributing fields, in declaration order. */
  function Contributing(fs: seq<Field>, o: Instance): (r: seq<Field>)
    ensures forall f :: f in r <==> f in fs && Contributes(f, o)
  {
    if |fs| == 0 then []
    else (if Contributes(fs[0], o) then [fs[0]] else []) + Contributing(fs[1..], o)
  }

  predicate Renders(f: Field, o: Instance) {
    FieldPredicate(f, FieldValue(o, f.name)).Returned?
  }

  /** Every contributing field before position `i` renders. */
  predicate RenderedBefore(fs: seq<Field>, o: Instance, i: int)
    requires 0 <= i <= |fs|
  {
    forall j :: 0 <= j < i && Contributes(fs[j], o) ==> Renders(fs[j], o)
  }

  /** Field `i` is the first contributing field that does not render, and
      rendering it throws `e`. */
  predicate FirstThrow(fs: seq<Field>, o: Instance, i: int, e: Error) {
    0 <= i < |fs| && Contributes(fs[i], o) &&
    FieldPredicate(fs[i], FieldValue(o, fs[i].name)) == Threw(e) && RenderedBefore(fs, o, i)
  }

  /** A first failing field of the tail is one of the whole list when the
      head is skipped or renders. */
  lemma FirstThrowShift(fs: seq<Field>, o: Instance, rest: Outcome<seq<string>>)
    requires |fs| > 0 && (Contributes(fs[0], o) ==> Renders(fs[0], o))
    requires rest.Threw? ==> exists i :: FirstThrow(fs[1..], o, i, rest.error)
    ensures rest.Threw? ==> exists i :: FirstThrow(fs, o, i, rest.error)
  {
    if rest.Threw? {
      var i :| FirstThrow(fs[1..], o, i, rest.error);
      assert fs[i + 1] == fs[1..][i];
      assert FirstThrow(fs, o, i + 1, rest.error);
    }
  }

  /** The list of predicates the loop of `parseWhereParams` collects, or
      the exception of the first contributing field that cannot be
      rendered. */
  function Predicates(fs: seq<Field>, o: Instance): (r: Outcome<seq<string>>)
    ensures r.Returned? <==> forall f :: f in fs && Contributes(f, o) ==> Renders(f, o)
    ensures r.Threw? ==>
      exists f :: f in fs && Contributes(f, o) && FieldPredicate(f, FieldValue(o, f.name)) == Threw(r.error)
    ensures r.Threw? ==> exists i :: FirstThrow(fs, o, i, r.error)
  {
    if |fs| == 0 then Returned([])
    else
      var f := fs[0];
      assert fs == [f] + fs[1..];
      if !Contributes(f, o) then
        var rest := Predicates(fs[1..], o);
        FirstThrowShift(fs, o, rest);
        rest
      else
        match FieldPredicate(f, FieldValue(o, f.name))
        case Threw(e) =>
          assert FirstThrow(fs, o, 0, e);
          Threw(e)
        case Returned(p) =>
          var rest := Predicates(fs[1..], o);
          FirstThrowShift(fs, o, rest);
          var ps :- rest;
          Returned([p] + ps)
  }

  lemma PredicatesSkip(f: Field, rest: seq<Field>, o: Instance)
    requires !Contributes(f, o)
    ensures Predicates([f] + rest, o) == Predicates(rest, o)
  {
    assert ([f] + rest)[1..] == rest;
  }

  lemma PredicatesCons(f: Field, rest: seq<Field>, o: Instance, p: string)
    requires Contributes(f, o) && FieldPredicate(f, FieldValue(o, f.name)) == Returned(p)
    requires Predicates(rest, o).Returned?
    ensures Predicates([f] + rest, o) == Returned([p] + Predicates(rest, o).value)
  {
    assert ([f] + rest)[1..] == rest;
  }

  /** The predicates are those of the contributing fields, one each, in
      declaration order. */
  predicate PredicatesMatch(cs: seq<Field>, ps: seq<string>, o: Instance) {
    |ps| == |cs| &&
    forall i :: 0 <= i < |cs| ==> FieldPredicate(cs[i], FieldValue(o, cs[i].name)) == Returned(ps[i])
  }

  lemma PredicatesMatchCons(f: Field, cs: seq<Field>, p: string, ps: seq<string>, o: Instance)
    requires FieldPredicate(f, FieldValue(o, f.name)) == Returned(p)
    requires PredicatesMatch(cs, ps, o)
    ensures PredicatesMatch([f] + cs, [p] + ps, o)
  {
    var cs', ps' := [f] + cs, [p] + ps;
    forall i | 0 <= i < |cs'|
      ensures FieldPredicate(cs'[i], FieldValue(o, cs'[i].name)) == Returned(ps'[i])
    {
      if i > 0 {
        assert cs'[i] == cs[i - 1] && ps'[i] == ps[i - 1];
      }
    }
  }

  lemma ContributingCons(fs: seq<Field>, o: Instance)
    requires |fs| > 0
    ensures Contributing(fs, o) == if Contributes(fs[0], o) then [fs[0]] + Contributing(fs[1..], o) else Contributing(fs[1..], o)
  {
  }

  lemma {:induction false} PredicatesOfContributing(fs: seq<Field>, o: Instance)
    requires Predicates(fs, o).Returned?
    ensures PredicatesMatch(Contributing(fs, o), Predicates(fs, o).value, o)
  {
    if |fs| > 0 {
      var f, rest := fs[0], fs[1..];
      assert fs == [f] + rest;
      ContributingCons(fs, o);
      if !Contributes(f, o) {
        PredicatesSkip(f, rest, o);
        PredicatesOfContributing(rest, o);
      } else {
        var p := FieldPredicate(f, FieldValue(o, f.name)).value;
        PredicatesOfContributing(rest, o);
        PredicatesCons(f, rest, o, p);
        PredicatesMatchCons(f, Contributing(rest, o), p, Predicates(rest, o).value, o);
      }
    }
  }

  /** `parseWhereParams(o)`: the contributing fields' predicates joined
      with ` AND `. */
  function WhereParams(o: Obj): (r: Outcome<string>)
    ensures r.Returned? <==> forall f :: f in o.cls.fields && Contributes(f, o.values) ==> Renders(f, o.values)
    ensures (forall f :: f in o.cls.fields ==> !Contributes(f, o.values)) ==> r == Returned("")
    ensures r.Threw? ==> Predicates(o.cls.fields, o.values) == Threw(r.error)
  {
    var ps :- Predicates(o.cls.fields, o.values);
    PredicatesOfContributing(o.cls.fields, o.values);
    var cs := Contributing(o.cls.fields, o.values);
    assert |cs| > 0 ==> cs[0] in cs;
    Returned(Join(ps, AndOp))
  }

  /** The query `selectSQL` / `countSQL` build, before MyBatis renders it:
      the select list, the table and the WHERE text. */
  datatype Query = Query(select: string, table: string, where: string)

  /** `selectSQL(tabClass, cols, wp)`; an empty `cols` (also `null`, and
      the two-argument overload) selects every key of the column map. */
  function SelectSql(tab: ClassDesc, cols: seq<string>, wp: Obj): (r: Outcome<Query>)
    ensures r.Returned? <==> WhereParams(wp).Returned?
    ensures r.Returned? ==> r.value.table == LoadTableName(tab) && r.value.where == WhereParams(wp).value
  {
    var where :- WhereParams(wp);
    Returned(Query(Join(SelectedColumns(tab, cols), Comma), LoadTableName(tab), where))
  }

  /** The columns `selectSQL` lists: the requested ones, or every key of
      the column map when none are requested. */
  function SelectedColumns(tab: ClassDesc, cols: seq<string>): seq<string> {
    if |cols| == 0 then Keys(LoadColumnMap(tab)) else cols
  }

  /** The select list names exactly the selected columns, in order: split
      at commas it gives them back (column names without commas). With no
      columns requested these are the column map's keys, in field order. */
  lemma SelectListRoundTrip(tab: ClassDesc, cols: seq<string>, wp: Obj)
    requires SelectSql(tab, cols, wp).Returned?
    requires |SelectedColumns(tab, cols)| > 0
    requires forall c :: c in SelectedColumns(tab, cols) ==> ',' !in c
    ensures SplitOn(SelectSql(tab, cols, wp).value.select, ',') == SelectedColumns(tab, cols)
    ensures |cols| == 0 ==> SelectedColumns(tab, cols) == FirstOccurrences(MappedKeys(tab.fields))
  {
    JoinSplitOn(SelectedColumns(tab, cols), ',');
    ColumnMapKeyOrder(tab.fields);
  }

  /** `countSQL(tabClass, col, wp)`: ` count(distinct col) ` over the same
      table and WHERE text `selectSQL` would use. */
  function CountSql(tab: ClassDesc, col: string, wp: Obj): (r: Outcome<Query>)
    ensures r.Returned? <==> SelectSql(tab, [], wp).Returned?
    ensures r.Returned? ==>
      r.value.table == SelectSql(tab, [], wp).value.table &&
      r.value.where == SelectSql(tab, [], wp).value.where
    ensures r.Returned? ==> r.value.select == " count(distinct " + col + ") "
  {
    var where :- WhereParams(wp);
    Returned(Query(" count(distinct " + col + ") ", LoadTableName(tab), where))
  }

  // ---------------------------------------------------------------------
  // Properties
  // ---------------------------------------------------------------------

  /** The WHERE builder and the column map disagree on static fields: a
      static, non-ignored field with a value contributes a predicate, yet
      the column map never holds it. */
  lemma StaticFieldFiltersButIsNotAColumn(o: Obj, f: Field)
    requires f in o.cls.fields && f.isStatic && !f.sqlIgnore
    requires FieldValue(o.values, f.name) != Null
    ensures f in Contributing(o.cls.fields, o.values)
    ensures forall k :: Lookup(LoadColumnMap(o.cls), k) != Some(f)
  {
  }

  /** An object Java can build always has a value in a primitive field,
      so a non-ignored primitive field always adds a predicate and the
      WHERE text is never empty. */
  lemma PrimitiveFieldAlwaysFilters(o: Obj, f: Field)
    requires WellTyped(o)
    requires f in o.cls.fields && f.kind.PrimitiveType? && !f.sqlIgnore
    ensures f in Contributing(o.cls.fields, o.values)
    ensures WhereParams(o).Returned? ==> WhereParams(o).value != ""
  {
    var v := FieldValue(o.values, f.name);
    assert Assignable(f.kind, v);
    var cs := Contributing(o.cls.fields, o.values);
    assert f in cs;
    if WhereParams(o).Returned? {
      WhereIsJoinOfContributing(o);
      var i :| 0 <= i < |cs| && cs[i] == f;
      var ps := RenderAll(cs, o.values);
      ScalarFieldPredicate(f, v);
      assert ps[i] == ColumnKey(f) + " = " + ToText(v);
      JoinCovers(ps, AndOp, i);
    }
  }

  /** The WHERE text is the contributing fields' predicates, in field
      order, joined with ` AND `; a field whose value is null or that is
      ignored adds nothing. */
  lemma WhereIsJoinOfContributing(o: Obj)
    requires WhereParams(o).Returned?
    ensures var cs := Contributing(o.cls.fields, o.values);
      (forall i :: 0 <= i < |cs| ==> Renders(cs[i], o.values)) &&
      WhereParams(o).value == Join(RenderAll(cs, o.values), AndOp)
  {
    var cs := Contributing(o.cls.fields, o.values);
    var ps := Predicates(o.cls.fields, o.values).value;
    PredicatesOfContributing(o.cls.fields, o.values);
    assert forall i :: 0 <= i < |cs| ==> cs[i] in cs;
    assert ps == RenderAll(cs, o.values);
  }

  /** The predicate text of every field in `cs`, each of which renders. */
  function RenderAll(cs: seq<Field>, o: Instance): (r: seq<string>)
    requires forall i :: 0 <= i < |cs| ==> Renders(cs[i], o)
    ensures |r| == |cs|
    ensures forall i :: 0 <= i < |cs| ==> Returned(r[i]) == FieldPredicate(cs[i], FieldValue(o, cs[i].name))
  {
    if |cs| == 0 then []
    else
      assert Renders(cs[0], o);
      [FieldPredicate(cs[0], FieldValue(o, cs[0].name)).value] + RenderAll(cs[1..], o)
  }

  // Worked examples.

  const NameField: Field := Field("name", StringType, false, false, None)
  const AgeField: Field := Field("age", IntegerType, false, false, None)
  const EmailField: Field := Field("email", StringType, false, false, None)

  lemma LowerCaseNames()
    ensures ColumnKey(NameField) == "name"
    ensures ColumnKey(AgeField) == "age"
  {
    NoUpperByScan("name");
    ToUnderscoreFixedPoint("name");
    NoUpperByScan("age");
    ToUnderscoreFixedPoint("age");
  }

  /** A `String` field is compared with its value in single quotes, and
      a quote inside the value is not escaped: `O'Brien` gives
      `name = 'O'Brien'`. */
  lemma StringFieldPredicate(s: string)
    ensures FieldPredicate(NameField, Str(s)) == Returned("name = '" + s + "'")
  {
    LowerCaseNames();
    ScalarFieldPredicate(NameField, Str(s));
    assert ToText(Str(s)) == s;
    assert "name" + " = '" + s + "'" == "name = '" + s + "'";
  }

  /** A number is compared bare. */
  lemma IntegerFieldPredicate()
    ensures FieldPredicate(AgeField, Int(5)) == Returned("age = 5")
  {
    LowerCaseNames();
    assert IntToDecimal(5) == "5";
    assert FieldPredicate(AgeField, Int(5)) == Returned(ColumnKey(AgeField) + EqualOp + ToText(Int(5)));
    assert "age" + " = " + "5" == "age = 5";
  }

  /** The literal join the two-field example relies on. */
  lemma TwoFieldWhereText()
    ensures "name = 'Bob'" + " AND " + "age = 5" == "name = 'Bob' AND age = 5"
  {
  }

  /** The predicates of a filter with `name` and `age` set and `email`
      null: the null field adds none. */
  lemma TwoFieldPredicates(o: Instance)
    requires o == map["name" := Str("Bob"), "age" := Int(5)]
    ensures Predicates([NameField, AgeField, EmailField], o) == Returned(["name = 'Bob'", "age = 5"])
  {
    TailPredicates(o);
    BobPredicate(o);
    PredicatesCons(NameField, [AgeField, EmailField], o, "name = 'Bob'");
    assert [NameField] + [AgeField, EmailField] == [NameField, AgeField, EmailField];
    assert ["name = 'Bob'"] + ["age = 5"] == ["name = 'Bob'", "age = 5"];
  }

  lemma BobPredicate(o: Instance)
    requires o == map["name" := Str("Bob"), "age" := Int(5)]
    ensures Contributes(NameField, o) && FieldPredicate(NameField, FieldValue(o, NameField.name)) == Returned("name = 'Bob'")
  {
    StringFieldPredicate("Bob");
    assert "name = '" + "Bob" + "'" == "name = 'Bob'";
    assert FieldValue(o, NameField.name) == Str("Bob");
  }

  lemma TailPredicates(o: Instance)
    requires o == map["name" := Str("Bob"), "age" := Int(5)]
    ensures Predicates([AgeField, EmailField], o) == Returned(["age = 5"])
  {
    IntegerFieldPredicate();
    assert FieldValue(o, EmailField.name) == Null;
    assert FieldValue(o, AgeField.name) == Int(5);
    PredicatesSkip(EmailField, [], o);
    assert [EmailField] + [] == [EmailField];
    assert Predicates([EmailField], o) == Returned([]);
    PredicatesCons(AgeField, [EmailField], o, "age = 5");
    assert [AgeField] + [EmailField] == [AgeField, EmailField];
    assert ["age = 5"] + [] == ["age = 5"];
  }

  /** Two filled fields joined with ` AND `; a null field is skipped. */
  lemma TwoFieldWhere()
    ensures
      var c := ClassDesc("Filter", None, [NameField, AgeField, EmailField], Some(map[]));
      WhereParams(Obj(c, map["name" := Str("Bob"), "age" := Int(5)])) == Returned("name = 'Bob' AND age = 5")
  {
    TwoFieldPredicates(map["name" := Str("Bob"), "age" := Int(5)]);
    var ps := ["name = 'Bob'", "age = 5"];
    assert Join(ps, AndOp) == "name = 'Bob'" + " AND " + "age = 5";
    TwoFieldWhereText();
  }

  /** A `BETWEEN` list renders its first two elements and a trailing space. */
  lemma BetweenPredicate(name: string)
    ensures
      var f := Field(name, ListType(LongType), false, false, Some(SqlColumn("create_time", BETWEEN)));
      FieldPredicate(f, ListVal([Long(1), Long(9)])) == Returned("create_time BETWEEN 1 AND 9 ")
  {
    assert IntToDecimal(1) == "1";
    assert IntToDecimal(9) == "9";
    assert "create_time" + " BETWEEN " + "1" + " AND " + "9" + " " == "create_time BETWEEN 1 AND 9 ";
  }

  /** An `EQ` list of strings becomes an `in` list of quoted elements. */
  lemma InPredicate(name: string)
    ensures
      var f := Field(name, ListType(StringType), false, false, Some(SqlColumn("status", EQ)));
      FieldPredicate(f, ListVal([Str("a"), Str("b")])) == Returned("status in ('a','b')")
  {
    var items := [Str("a"), Str("b")];
    assert Quoted(Str("a")) == "'a'";
    assert Quoted(Str("b")) == "'b'";
    assert ElementTexts(StringType, items) == ["'a'", "'b'"];
    assert InElements(StringType, items) == "'a'" + "," + "'b'";
    assert "status" + " in " + "(" + ("'a'" + "," + "'b'") + ")" == "status in ('a','b')";
  }

  /** An `EQ` list of integers becomes an `in` list of bare numbers. */
  lemma IntegerInPredicate(name: string)
    ensures
      var f := Field(name, ListType(IntegerType), false, false, Some(SqlColumn("ids", EQ)));
      FieldPredicate(f, ListVal([Int(1), Int(2)])) == Returned("ids in (1,2)")
  {
    var items := [Int(1), Int(2)];
    assert ToText(Int(1)) == "1";
    assert ToText(Int(2)) == "2";
    assert ElementTexts(IntegerType, items) == ["1", "2"];
    assert InElements(IntegerType, items) == "1" + "," + "2";
    assert "ids" + " in " + "(" + ("1" + "," + "2") + ")" == "ids in (1,2)";
  }

  /** A `List` field without `@SqlColumn` fails, whatever its element type. */
  lemma UnannotatedListFails(name: string, element: Kind, v: Value)
    ensures FieldPredicate(Field(name, ListType(element), false, false, None), v) == Threw(NullPointer)
  {
  }

  /** `@SqlColumn` without a name gives the empty column name in the WHERE
      clause, as it does in the column map. */
  lemma UnnamedAnnotationPredicate(name: string)
    ensures
      var f := Field(name, StringType, false, false, Some(DefaultSqlColumn));
      FieldPredicate(f, Str("x")) == Returned(" = 'x'")
  {
    assert Quoted(Str("x")) == "'x'";
    assert "" + " = " + "'x'" == " = 'x'";
  }

  /** A count query over a filter with no value set has an empty WHERE
      text. Such a filter exists only when the class has no primitive
      field, since those always hold a value. */
  lemma CountWithEmptyFilter(tab: ClassDesc, filterClass: ClassDesc)
    requires WellTyped(Obj(filterClass, map[]))
    ensures
      CountSql(tab, "id", Obj(filterClass, map[])) ==
      Returned(Query(" count(distinct id) ", LoadTableName(tab), ""))
  {
    forall f | f in filterClass.fields ensures !Contributes(f, map[]) { }
    assert WhereParams(Obj(filterClass, map[])) == Returned("");
    assert " count(distinct " + "id" + ") " == " count(distinct id) ";
  }
}

=== FILE: strings.dfy ===
/** Text utilities with the behaviour of the Java library calls the helper
    relies on: ASCII case mapping, `String.split` on a one-character
    separator, `StringUtils.join`, `StringUtils.isBlank`, `Integer.parseInt`
    / `Long.parseLong` and `String.valueOf` on integers.
 */
module Strings {
  import opened Results

  // ---------------------------------------------------------------------
  // Characters
  // ---------------------------------------------------------------------

  /** The characters Guava's camel-case word boundary and `Ascii.toLowerCase` act on. */
  predicate IsUpper(c: char) {
    'A' <= c <= 'Z'
  }

  predicate IsLower(c: char) {
    'a' <= c <= 'z'
  }

  predicate IsDigit(c: char) {
    '0' <= c <= '9'
  }

  function ToLower(c: char): (r: char)
    ensures !IsUpper(r)
    ensures IsUpper(c) ==> IsLower(r) && ToUpper(r) == c
    ensures !IsUpper(c) ==> r == c
  {
    if IsUpper(c) then (c as int + 32) as char else c
  }

  function ToUpper(c: char): (r: char)
    ensures !IsLower(r)
    ensures IsLower(c) ==> IsUpper(r)
    ensures !IsLower(c) ==> r == c
  {
    if IsLower(c) then (c as int - 32) as char else c
  }

  /** `Character.isWhitespace`: the ASCII separators and control characters
      it accepts, plus the Unicode space, line and paragraph separators
      other than the non-breaking ones (U+00A0, U+2007, U+202F). */
  predicate IsWhitespace(c: char) {
    || c == ' ' || c == '\t' || c == '\n' || c == '\U{000B}' || c == '\U{000C}' || c == '\r'
    || ('\U{001C}' <= c <= '\U{001F}')
    || c == '\U{1680}'
    || ('\U{2000}' <= c <= '\U{2006}') || ('\U{2008}' <= c <= '\U{200A}')
    || c == '\U{2028}' || c == '\U{2029}' || c == '\U{205F}' || c == '\U{3000}'
  }

  // ---------------------------------------------------------------------
  // Whole strings
  // ---------------------------------------------------------------------

  function LowerCase(s: string): (r: string)
    ensures |r| == |s|
    ensures forall i :: 0 <= i < |s| ==> r[i] == ToLower(s[i])
  {
    if |s| == 0 then "" else [ToLower(s[0])] + LowerCase(s[1..])
  }

  function UpperCase(s: string): (r: string)
    ensures |r| == |s|
    ensures forall i :: 0 <= i < |s| ==> r[i] == ToUpper(s[i])
  {
    if |s| == 0 then "" else [ToUpper(s[0])] + UpperCase(s[1..])
  }

  /** `StringUtils.isBlank` on a non-null string: empty or only whitespace. */
  predicate IsBlank(s: string) {
    forall i :: 0 <= i < |s| ==> IsWhitespace(s[i])
  }

  /** `String.equalsIgnoreCase`, restricted to ASCII case folding. */
  predicate EqualsIgnoreCase(a: string, b: string) {
    |a| == |b| && forall i :: 0 <= i < |a| ==> ToUpper(a[i]) == ToUpper(b[i])
  }

  /** Every occurrence of `c` removed. */
  function Remove(s: string, c: char): (r: string)
    ensures c !in r
    ensures |r| <= |s|
  {
    if |s| == 0 then ""
    else if s[0] == c then Remove(s[1..], c)
    else [s[0]] + Remove(s[1..], c)
  }

  lemma RemoveAppend(a: string, b: string, c: char)
    ensures Remove(a + b, c) == Remove(a, c) + Remove(b, c)
  {
    if |a| > 0 {
      assert (a + b)[1..] == a[1..] + b;
      RemoveAppend(a[1..], b, c);
    } else {
      assert a + b == b;
    }
  }

  // ---------------------------------------------------------------------
  // Join and split
  // ---------------------------------------------------------------------

  /** `StringUtils.join(parts, sep)` / `Collectors.joining(sep)`. */
  function Join(parts: seq<string>, sep: string): string {
    if |parts| == 0 then ""
    else if |parts| == 1 then parts[0]
    else parts[0] + sep + Join(parts[1..], sep)
  }

  /** A join is at least as long as any of its parts. */
  lemma {:induction false} JoinCovers(parts: seq<string>, sep: string, k: int)
    requires 0 <= k < |parts|
    ensures |Join(parts, sep)| >= |parts[k]|
  {
    if |parts| > 1 && k > 0 {
      JoinCovers(parts[1..], sep, k - 1);
    }
  }

  /** Splits at every occurrence of `sep`, keeping empty pieces: the
      pieces of `s` between separators, always at least one. */
  function SplitOn(s: string, sep: char): (r: seq<string>)
    ensures |r| >= 1
  {
    if |s| == 0 then [""]
    else
      var rest := SplitOn(s[1..], sep);
      if s[0] == sep then [""] + rest
      else [[s[0]] + rest[0]] + rest[1..]
  }

  /** Removes the empty strings at the end of a list of pieces. */
  function DropTrailingEmpty(parts: seq<string>): (r: seq<string>)
    ensures |r| <= |parts| && r == parts[..|r|]
    ensures |r| > 0 ==> r[|r| - 1] != ""
    ensures forall k :: |r| <= k < |parts| ==> parts[k] == ""
  {
    if |parts| == 0 then []
    else if parts[|parts| - 1] == "" then DropTrailingEmpty(parts[..|parts| - 1])
    else parts
  }

  /** `String.split(regex)` where the regex matches the single character
      `sep`: a string without the separator splits into itself (even when
      empty); otherwise the pieces between separators, with trailing empty
      pieces removed. */
  function JavaSplit(s: string, sep: char): (r: seq<string>)
    ensures sep !in s ==> r == [s]
    ensures forall k :: 0 <= k < |r| ==> sep !in r[k]
    ensures sep in s && |r| > 0 ==> r[|r| - 1] != ""
  {
    if sep !in s then [s]
    else
      SplitOnJoin(s, sep);
      DropTrailingEmpty(SplitOn(s, sep))
  }

  lemma JoinCons(p: string, rest: seq<string>, sep: string)
    requires |rest| >= 1
    ensures Join([p] + rest, sep) == p + sep + Join(rest, sep)
  {
    assert ([p] + rest)[1..] == rest;
  }

  lemma JoinHeadExtend(c: char, rest: seq<string>, sep: string)
    requires |rest| >= 1
    ensures Join([[c] + rest[0]] + rest[1..], sep) == [c] + Join(rest, sep)
  {
    if |rest| > 1 {
      JoinCons([c] + rest[0], rest[1..], sep);
      JoinCons(rest[0], rest[1..], sep);
      assert [rest[0]] + rest[1..] == rest;
    }
  }

  /** Joining the pieces back with the separator restores the text. */
  lemma {:induction false} SplitOnJoin(s: string, sep: char)
    ensures Join(SplitOn(s, sep), [sep]) == s
    ensures forall k :: 0 <= k < |SplitOn(s, sep)| ==> sep !in SplitOn(s, sep)[k]
  {
    if |s| > 0 {
      var rest := SplitOn(s[1..], sep);
      SplitOnJoin(s[1..], sep);
      if s[0] == sep {
        JoinCons("", rest, [sep]);
        assert s == [sep] + s[1..];
      } else {
        JoinHeadExtend(s[0], rest, [sep]);
        assert s == [s[0]] + s[1..];
        var r := SplitOn(s, sep);
        forall k | 0 <= k < |r|
          ensures sep !in r[k]
        {
          if k > 0 {
            assert r[k] == rest[k];
          }
        }
      }
    }
  }

  /** The last piece is empty exactly when the text is empty or ends with the separator. */
  lemma {:induction false} SplitOnLastEmpty(s: string, sep: char)
    ensures var r := SplitOn(s, sep); r[|r| - 1] == "" <==> |s| == 0 || s[|s| - 1] == sep
  {
    if |s| > 0 {
      SplitOnLastEmpty(s[1..], sep);
      var rest := SplitOn(s[1..], sep);
      if s[0] != sep && |rest| == 1 {
        assert SplitOn(s, sep) == [[s[0]] + rest[0]];
        assert |s[1..]| > 0 ==> s[1..][|s[1..]| - 1] == s[|s| - 1];
      }
    }
  }

  /** No cell produced by `JavaSplit` contains the separator, and when the
      text does not end with the separator (so no trailing cell is dropped)
      joining the cells restores it. */
  lemma JavaSplitJoin(s: string, sep: char)
    ensures forall k :: 0 <= k < |JavaSplit(s, sep)| ==> sep !in JavaSplit(s, sep)[k]
    ensures |s| == 0 || s[|s| - 1] != sep ==> Join(JavaSplit(s, sep), [sep]) == s
  {
    if sep in s {
      SplitOnJoin(s, sep);
      var parts := SplitOn(s, sep);
      var r := DropTrailingEmpty(parts);
      forall k | 0 <= k < |r|
        ensures sep !in r[k]
      {
        assert r[k] == parts[k];
      }
      if |s| == 0 || s[|s| - 1] != sep {
        SplitOnLastEmpty(s, sep);
        assert r == parts;
      }
    }
  }

  lemma {:induction false} SplitOnNoSeparator(a: string, rest: string, sep: char)
    requires sep !in a
    ensures SplitOn(a, sep) == [a]
    ensures SplitOn(a + [sep] + rest, sep) == [a] + SplitOn(rest, sep)
  {
    if |a| > 0 {
      SplitOnNoSeparator(a[1..], rest, sep);
      assert (a + [sep] + rest)[1..] == a[1..] + [sep] + rest;
      assert [a[0]] + a[1..] == a;
    } else {
      assert a + [sep] + rest == [sep] + rest;
      assert ([sep] + rest)[1..] == rest;
    }
  }

  /** Splitting joined pieces that do not contain the separator gives the
      pieces back. */
  lemma {:induction false} JoinSplitOn(parts: seq<string>, sep: char)
    requires |parts| >= 1
    requires forall k :: 0 <= k < |parts| ==> sep !in parts[k]
    ensures SplitOn(Join(parts, [sep]), sep) == parts
  {
    if |parts| == 1 {
      SplitOnNoSeparator(parts[0], "", sep);
    } else {
      JoinSplitOn(parts[1..], sep);
      SplitOnNoSeparator(parts[0], Join(parts[1..], [sep]), sep);
      assert [parts[0]] + parts[1..] == parts;
    }
  }

  lemma JoinHasSeparator(parts: seq<string>, sep: char)
    requires |parts| >= 2
    ensures sep in Join(parts, [sep])
  {
    assert Join(parts, [sep]) == parts[0] + [sep] + Join(parts[1..], [sep]);
    assert Join(parts, [sep])[|parts[0]|] == sep;
  }

  /** `String.split` gives back the pieces that were joined exactly when
      the last piece is not empty (or is the only one): an empty last
      piece is dropped as a trailing empty string. */
  lemma JavaSplitOfJoin(parts: seq<string>, sep: char)
    requires |parts| >= 1
    requires forall k :: 0 <= k < |parts| ==> sep !in parts[k]
    ensures JavaSplit(Join(parts, [sep]), sep) == parts <==> |parts| == 1 || parts[|parts| - 1] != ""
    ensures |JavaSplit(Join(parts, [sep]), sep)| == |parts| <==> |parts| == 1 || parts[|parts| - 1] != ""
  {
    if |parts| == 1 {
      assert Join(parts, [sep]) == parts[0];
    } else {
      JoinHasSeparator(parts, sep);
      JoinSplitOn(parts, sep);
    }
  }

  // ---------------------------------------------------------------------
  // Decimal integers
  // ---------------------------------------------------------------------

  predicate AllDigits(s: string) {
    forall i :: 0 <= i < |s| ==> IsDigit(s[i])
  }

  function DigitValue(c: char): nat
    requires IsDigit(c)
  {
    c as int - '0' as int
  }

  function DigitChar(d: nat): (c: char)
    requires d < 10
    ensures IsDigit(c) && DigitValue(c) == d
  {
    ('0' as int + d) as char
  }

  /** The value of a string of decimal digits, most significant first. */
  function DigitsValue(s: string): nat
    requires AllDigits(s)
  {
    if |s| == 0 then 0 else DigitsValue(s[..|s| - 1]) * 10 + DigitValue(s[|s| - 1])
  }

  /** `String.valueOf` of a non-negative integer: no sign, no leading zeros. */
  function NatToDecimal(n: nat): (r: string)
    ensures |r| >= 1 && AllDigits(r)
    ensures |r| > 1 ==> r[0] != '0'
  {
    if n < 10 then [DigitChar(n)] else NatToDecimal(n / 10) + [DigitChar(n % 10)]
  }

  /** `String.valueOf` of an `Integer` or `Long`. */
  function IntToDecimal(i: int): string {
    if i < 0 then "-" + NatToDecimal(-i) else NatToDecimal(i)
  }

  const IntMin: int := -0x8000_0000
  const IntMax: int := 0x7FFF_FFFF
  const LongMin: int := -0x8000_0000_0000_0000
  const LongMax: int := 0x7FFF_FFFF_FFFF_FFFF

  /** `Integer.parseInt` (with `lo`/`hi` the `int` bounds) and
      `Long.parseLong` (with the `long` bounds): an optional `+` or `-`,
      then at least one decimal digit, and a value inside the type's range;
      anything else is a `NumberFormatException`, here `None`. */
  function ParseDecimal(s: string, lo: int, hi: int): (r: Option<int>)
    ensures r.Some? ==> lo <= r.value <= hi
    ensures r.Some? ==> |s| > 0 && (IsDigit(s[0]) || s[0] == '-' || s[0] == '+')
  {
    if |s| == 0 then None
    else
      var digits := if s[0] == '-' || s[0] == '+' then s[1..] else s;
      if |digits| == 0 || !AllDigits(digits) then None
      else
        var v: int := if s[0] == '-' then 0 - DigitsValue(digits) as int else DigitsValue(digits);
        if lo <= v <= hi then Some(v) else None
  }

  lemma {:induction false} NatToDecimalValue(n: nat)
    ensures DigitsValue(NatToDecimal(n)) == n
  {
    if n >= 10 {
      var p := NatToDecimal(n / 10);
      var s := p + [DigitChar(n % 10)];
      assert s[..|s| - 1] == p;
      NatToDecimalValue(n / 10);
    }
  }

  /** A leading zero does not change the value of a digit string. */
  lemma {:induction false} LeadingZeroValue(d: string)
    requires AllDigits(d)
    ensures AllDigits("0" + d) && DigitsValue("0" + d) == DigitsValue(d)
  {
    if |d| > 0 {
      var z := "0" + d;
      assert z[..|z| - 1] == "0" + d[..|d| - 1];
      LeadingZeroValue(d[..|d| - 1]);
    }
  }

  /** `parseInt`/`parseLong` accept a leading `+` and leading zeros, and
      neither changes the value: `+5` and `005` both read as 5, `-05` as -5. */
  lemma ParseDecimalIgnoresPlusAndZeros(d: string, lo: int, hi: int)
    requires |d| > 0 && AllDigits(d)
    ensures ParseDecimal("+" + d, lo, hi) == ParseDecimal(d, lo, hi)
    ensures ParseDecimal("0" + d, lo, hi) == ParseDecimal(d, lo, hi)
    ensures ParseDecimal("-0" + d, lo, hi) == ParseDecimal("-" + d, lo, hi)
  {
    PlusIgnored(d, lo, hi);
    ZeroIgnored(d, lo, hi);
    NegativeZeroIgnored(d, lo, hi);
  }

  lemma PlusIgnored(d: string, lo: int, hi: int)
    requires |d| > 0 && AllDigits(d)
    ensures ParseDecimal("+" + d, lo, hi) == ParseDecimal(d, lo, hi)
  {
    assert ("+" + d)[0] == '+' && ("+" + d)[1..] == d;
  }

  lemma ZeroIgnored(d: string, lo: int, hi: int)
    requires |d| > 0 && AllDigits(d)
    ensures ParseDecimal("0" + d, lo, hi) == ParseDecimal(d, lo, hi)
  {
    LeadingZeroValue(d);
    assert ("0" + d)[0] == '0';
  }

  lemma NegativeZeroIgnored(d: string, lo: int, hi: int)
    requires |d| > 0 && AllDigits(d)
    ensures ParseDecimal("-0" + d, lo, hi) == ParseDecimal("-" + d, lo, hi)
  {
    LeadingZeroValue(d);
    assert ("-" + d)[0] == '-' && ("-" + d)[1..] == d;
    assert ("-0" + d)[0] == '-' && ("-0" + d)[1..] == "0" + d;
  }

  /** Parsing the decimal rendering of any in-range integer gives it back. */
  lemma DecimalRoundTrip(n: int, lo: int, hi: int)
    requires lo <= n <= hi
    ensures ParseDecimal(IntToDecimal(n), lo, hi) == Some(n)
  {
    var s := IntToDecimal(n);
    if n < 0 {
      NatToDecimalValue(-n);
      assert s[1..] == NatToDecimal(-n);
    } else {
      NatToDecimalValue(n);
    }
  }

  /** The decimal text of a number outside the target type's range is
      rejected: `parseInt("2147483648")` throws. */
  lemma DecimalOutOfRange(n: int, lo: int, hi: int)
    requires n < lo || n > hi
    ensures ParseDecimal(IntToDecimal(n), lo, hi) == None
  {
    var s := IntToDecimal(n);
    if n < 0 {
      NatToDecimalValue(-n);
      assert s[1..] == NatToDecimal(-n);
    } else {
      NatToDecimalValue(n);
    }
  }

  /** A text with a character other than a digit after the optional sign
      is rejected, whatever the range. */
  lemma NonDigitRejected(s: string, k: int, lo: int, hi: int)
    requires 0 < k < |s| && !IsDigit(s[k])
    ensures ParseDecimal(s, lo, hi) == None
  {
    var d := if s[0] == '-' || s[0] == '+' then s[1..] else s;
    if s[0] == '-' || s[0] == '+' {
      assert d[k - 1] == s[k];
    } else {
      assert d[k] == s[k];
    }
    assert !AllDigits(d);
  }

  /** A sign with no digit after it is rejected, while `-0` reads as 0. */
  lemma SignAlone(lo: int, hi: int)
    ensures ParseDecimal("+", lo, hi) == None
    ensures ParseDecimal("-", lo, hi) == None
    ensures lo <= 0 <= hi ==> ParseDecimal("-0", lo, hi) == Some(0)
  {
    assert "+"[1..] == [];
    assert "-"[1..] == [];
    assert "-0"[1..] == "0";
  }

  /** A digit string's value is at least that of its first digit. */
  lemma {:induction false} LeadDigitBound(p: string)
    requires |p| > 0 && AllDigits(p)
    ensures DigitsValue(p) >= DigitValue(p[0])
  {
    if |p| > 1 {
      LeadDigitBound(p[..|p| - 1]);
    }
  }

  /** A digit string without a leading zero is the rendering of its own
      value, so these are exactly the texts `String.valueOf` produces. */
  lemma {:induction false} CanonicalDigits(d: string)
    requires |d| > 0 && AllDigits(d) && (|d| == 1 || d[0] != '0')
    ensures d == NatToDecimal(DigitsValue(d))
  {
    var c := d[|d| - 1];
    if |d| > 1 {
      var p := d[..|d| - 1];
      LeadDigitBound(p);
      CanonicalDigits(p);
      var v := DigitsValue(d);
      assert v / 10 == DigitsValue(p) && v % 10 == DigitValue(c);
      assert d == p + [c];
    }
  }
}
